=== FILE: README.md ===
# Story Maker core, modelled in Dafny

Story Maker is a browser editor for stories made of chapters. It has an AI
assistant. This project models the two parts of it that hold logic:

- **The story store** (`src/store.ts`). It holds the persisted state: the list
  of stories, each with its chapters, and two selection cursors (current story
  and current chapter). It has seven transitions: `addStory`, `addChapter`,
  `updateChapter`, `setCurrentStory`, `setCurrentChapter`, `deleteStory` and
  `deleteChapter`. Each one is a pure function from state to state
  (`store.dfy`). `addChapter`, `updateChapter`, `deleteStory` and
  `deleteChapter` are built from `map` and `filter` as in the source
  (`seqs.dfy`). The other three are an append and two record updates. `store_invariants.dfy` proves:
  - identifiers stay globally unique over any run of transitions;
  - the cursors keep pointing at existing entities when callers select only
    what exists;
  - deleting what was just added restores the state;
  - calls that name nothing change nothing;
  - one chapter-writing session ends as expected.
- **The AI service's text handling** (`src/services/ai.ts`).
  - The prompt templates (`prompts.dfy`).
  - The parser that turns the model's reply into a title and a chapter body
    (`response.dfy`). The two regular expressions
    `/TITLE:\s*(.+?)(?:\n|$)/` and `/CONTENT:\s*([\s\S]*)/` are written out
    as explicit searches in ECMAScript's matching order. That order is: the
    leftmost start position, a greedy `\s*` that gives back characters one by
    one, and a lazy `.+?` that refuses line terminators. `trim` and `\s` use
    ECMAScript's white-space set (`js_text.dfy`).

`optional.dfy` holds the `Option` type. It stands in for `null`/`undefined`
for the cursors, for the optional title of `updateChapter` and for the
defaulted `language` parameter.

Identifiers that the source draws from `crypto.randomUUID()` are parameters
here. Each one comes with the precondition that it names no existing story or
chapter (`StoryStore.Fresh`).

Behaviour of the code that a reader might not expect:

- When the reply has no `CONTENT:` marker, the content is the raw reply,
  *untrimmed* (`src/services/ai.ts:76`). It is not the trimmed reply.
- `deleteChapter(storyId, chapterId)` tests the chapter cursor against
  `chapterId` alone (`src/store.ts:124-127`). So it also clears a selection
  of that chapter id when the story named holds no such chapter
  (`StoreInvariants.DeleteChapterClearsSelectionElsewhere`).
- A call that names nothing leaves the state unchanged only when the named
  id is not selected. `deleteStory` of a missing id that is the story cursor
  still clears both cursors. The no-op lemmas carry that condition.
- Nothing in the store enforces the cursor invariant (a selected chapter
  belongs to the selected story). `setCurrentChapter` accepts any id. The
  preservation lemma `StoreInvariants.StepKeepsCursorsValid` makes "select
  only what exists" an explicit obligation of the caller
  (`StoreInvariants.SelectsExisting`).
- The title regex has corners that a line-based reading misses:
  - A title line that holds text and ends in `\r\n` fails at that marker.
    With no later match, the title falls back to "Untitled Chapter"
    (the reply `TITLE: Foo\r\n`).
  - A blank `TITLE:` line lets `\s*` run on into the next line and capture it.
    This holds for a line of spaces too, whenever a non-blank line follows.
  - A title line of spaces with nothing non-blank after it (the reply
    `TITLE: \n`) gives an empty title, not the fallback.

## Model

| member | source | states |
|---|---|---|
| StoryStore.AddStory | src/store.ts:41-51 | The new story is appended with the fresh id, the given title and no chapters. Every earlier story stays where it was. The cursors are untouched. The id list grows by exactly the fresh id. |
| StoryStore.AddChapter | src/store.ts:53-70 | Every story with the id gains one chapter with the fresh id, the title and empty content, at the end. One id serves every such story (see "## Left out"). Every other story is unchanged. Story ids and titles and the cursors are kept. A missing story makes the call a no-op. |
| StoryStore.UpdateChapter | src/store.ts:72-90 | Every chapter whose story id and chapter id both match gets the new content. It gets the new title only if that title is present and non-empty. Every other chapter, every length and every id is unchanged, and so are the cursors. |
| StoryStore.SetCurrentStory | src/store.ts:92-96 | The story cursor becomes the argument and the chapter cursor is always cleared. The stories are untouched. |
| StoryStore.SetCurrentChapter | src/store.ts:98-101 | The chapter cursor becomes the argument. The stories and the story cursor are untouched. |
| StoryStore.DeleteStory | src/store.ts:103-110 | The stories left are the `filter` survivors. Each story with another id keeps exactly its number of copies, and no story with the deleted id remains. `Seqs.FilterConcat` gives their order. Both cursors clear exactly when the deleted id was the selected story; otherwise both are kept. |
| StoryStore.DeleteChapter | src/store.ts:112-128 | Only stories with the id lose the chapters with the chapter id, keeping their other chapters in order. Other stories, the story count and the story cursor are unchanged. The chapter cursor clears exactly when it equals the chapter id. |
| StoryStore.FindStory | src/components/ChapterEditor.tsx:40 | The lookup finds a story exactly when some story has the id. What it returns is the first story with that id: no earlier story has it. |
| StoryStore.FindChapter | src/components/ChapterEditor.tsx:41-43 | The lookup finds a chapter exactly when some chapter has the id. What it returns is the first chapter with that id: no earlier chapter has it. |
| Seqs.Map | src/store.ts:55 | The result has the input's length, and each position holds the callback applied to the element at that position. |
| Seqs.Filter | src/store.ts:105 | Each element that passes the test appears in the result exactly as many times as in the input. An element that fails does not appear at all. |
| Seqs.FilterConcat | src/store.ts:105 | Filtering a concatenation filters each part and keeps the parts in order, so survivors never change places. |
| Seqs.FilterSingle | src/store.ts:105 | A single element survives exactly when it passes. With `FilterConcat` this fixes the result on every input. |
| Seqs.FilterDropsOne | src/store.ts:105 | When only one position fails the test, filtering removes exactly that position. |
| StoreInvariants.FreshIsUnused | src/store.ts:46 | An id unused by the state is no story's id and no chapter's id. |
| StoreInvariants.UniqueStoryIds | src/store.ts:46 | With unique identifiers, no two stories share an id. |
| StoreInvariants.AddStoryKeepsIdsUnique | src/store.ts:41-51 | With a fresh id, addStory keeps every identifier unique. |
| StoreInvariants.AddChapterTouchesOneStory | src/store.ts:53-70 | With unique ids, addChapter replaces just the named story's position by that story plus the new chapter. |
| StoreInvariants.AddChapterKeepsIdsUnique | src/store.ts:53-70 | With a fresh id, addChapter keeps every identifier unique, whether or not the story exists. |
| StoreInvariants.UpdateChapterKeepsIds | src/store.ts:72-90 | updateChapter leaves the identifier list exactly as it was. |
| StoreInvariants.DeleteStoryShrinksIds | src/store.ts:103-110 | deleteStory only removes identifiers (multiset inclusion). |
| StoreInvariants.DeleteChapterShrinksIds | src/store.ts:112-128 | deleteChapter only removes identifiers (multiset inclusion). |
| StoreInvariants.StepKeepsIdsUnique | src/store.ts:41-128 | Each of the seven transitions keeps identifiers unique when the adds draw fresh ids. |
| StoreInvariants.RunKeepsIdsUnique | src/store.ts:41-128 | Identifiers stay unique over any sequence of transitions whose adds draw fresh ids. |
| StoreInvariants.StepKeepsCursorsValid | src/store.ts:41-128 | If callers select only existing entities, every transition keeps a selected story existing and a selected chapter inside the selected story. |
| StoreInvariants.DeleteStoryKeepsCursorsValid | src/store.ts:103-110 | If the selected story exists and the selected chapter lies inside it, both still hold after a story is deleted. A selection that survives the delete names entities that remain. |
| StoreInvariants.DeleteChapterKeepsCursorsValid | src/store.ts:112-128 | If the selection is valid before a chapter is deleted, it is valid after. The selected story remains, and a surviving chapter selection still lies inside it. |
| StoreInvariants.EmptyIsValid | src/store.ts:37-39 | The initial state has unique ids and valid cursors. |
| StoreInvariants.DeleteStoryUndoesAddStory | src/store.ts:41-110 | Deleting the story just added with a fresh id restores the earlier state, provided that id was not already selected. |
| StoreInvariants.DeleteChapterUndoesAddChapter | src/store.ts:53-128 | Deleting the chapter just added with a fresh id restores the earlier state, provided that id was not already selected. |
| StoreInvariants.DeleteStoryRemovesOnePosition | src/store.ts:103-105 | With unique ids, deleting a story removes exactly its position and keeps the rest in order. |
| StoreInvariants.UpdateMissingChapterIsNoOp | src/store.ts:72-90 | Updating a story/chapter pair that does not exist changes nothing. |
| StoreInvariants.DeleteMissingStoryIsNoOp | src/store.ts:103-110 | Deleting a missing, unselected story id changes nothing. |
| StoreInvariants.DeleteMissingChapterIsNoOp | src/store.ts:112-128 | Deleting a missing, unselected chapter changes nothing. |
| StoreInvariants.DeleteChapterClearsSelectionElsewhere | src/store.ts:124-127 | Naming a story without that chapter still clears a selection of that chapter id held in another story. |
| StoreInvariants.WriteFirstChapter | src/store.ts:41-90 | After adding a story, adding a chapter to it and writing the chapter, the lookup finds that story holding exactly that chapter with the written text. |
| StoreInvariants.FindAtEnd | src/components/ChapterEditor.tsx:40 | When only the last story has the id, the lookup returns that story. |
| JsText.LeadingSpace | src/services/ai.ts:71 | The greedy `\s*` consumes a prefix of white space and stops only at a non-space character or the end. |
| JsText.LeadingSpaceOf | src/services/ai.ts:71 | The greedy `\s*` consumes exactly a white-space prefix followed by a non-space character or by the end. |
| JsText.Trim | src/services/ai.ts:75-76 | The result is the slice after the leading white space, with only white space after it and no white space at either end. |
| JsText.TrimCharacterization | src/services/ai.ts:75-76 | Trimming white space + core + white space gives the core, whenever the core has no white space at its ends. |
| JsText.TrimOfTrimmed | src/services/ai.ts:75-76 | Trimming is the identity on strings with no white space at either end. |
| JsText.TrimSkipsLeadingSpace | src/services/ai.ts:72-76 | White space in front of a string does not change its trim. This is why stripping `\s*` before trimming changes nothing. |
| JsText.TrimKeepsNoLineTerminator | src/services/ai.ts:75 | Trimming a single-line string leaves it single-line. |
| JsText.IndexFrom | src/services/ai.ts:72 | The result is the first occurrence of the literal at or after the start position, or none if there is no occurrence there. |
| JsText.IndexOf | src/services/ai.ts:72 | The result is the first occurrence of the literal, present exactly when the literal occurs at all. |
| JsText.OccursInMiddle | src/services/ai.ts:57-62 | The middle piece of a concatenation occurs at the end of the first piece. |
| ChapterResponse.LineEnd | src/services/ai.ts:71 | The result is the first line terminator at or after the index, or the end, with no terminator before it. |
| ChapterResponse.LazyCaptureIsLineEnd | src/services/ai.ts:71 | The lazy `.+?(?:\n|$)` stops at the end of its line, and succeeds exactly when that line ends with `\n` or the input. |
| ChapterResponse.CaptureFrom | src/services/ai.ts:71 | A capture starting at an index succeeds exactly when that character is not a line terminator and its line ends with `\n` or the input. The capture is then the rest of the line. |
| ChapterResponse.Backtrack | src/services/ai.ts:71 | Giving back `\s*` characters one at a time finds the greatest start in the range where the capture succeeds: every later start fails. If it finds none, every start in the range fails. |
| ChapterResponse.LazyCapture | src/services/ai.ts:71 | The lazy `.+?(?:\n|$)` ends at a `\n` or at the end of the input, with no line terminator in between. |
| ChapterResponse.TitleAt | src/services/ai.ts:71 | A match at a position exists exactly when the marker is there and some start between the marker and the end of its white space lets the capture succeed. The capture is then the rest of the line from the greatest such start. It is non-empty and single-line. |
| ChapterResponse.TitleSearchIsLeftmost | src/services/ai.ts:71 | The match found is the one at the leftmost start that succeeds; no match means every start fails. |
| ChapterResponse.TitleSearchFindsLeftmost | src/services/ai.ts:71 | A successful search returns the capture at some start, and every earlier start fails. |
| ChapterResponse.TitleSearchFailsEverywhere | src/services/ai.ts:71 | A failed search means the regex matches at no start from the search position on. |
| ChapterResponse.TitleSearch | src/services/ai.ts:71 | Whatever later start the search moves on to, what it returns is a non-empty single-line capture. |
| ChapterResponse.TitleCapture | src/services/ai.ts:71 | `match` finds nothing exactly when the attempt fails at every start position, and always when the reply has no `TITLE:`. |
| ChapterResponse.ExtractTitleIsFirstMatch | src/services/ai.ts:71-75 | When the regex matches, the title is the trimmed capture at the leftmost position where an attempt succeeds. |
| ChapterResponse.ExtractTitle | src/services/ai.ts:71-75 | With no match the title is "Untitled Chapter". With one it is the trimmed capture. Without a `TITLE:` marker there is never a match. Any other title is single-line and trimmed. |
| ChapterResponse.ContentCapture | src/services/ai.ts:72 | The content regex matches exactly when the reply holds `CONTENT:`. Its capture is the text after the first marker once the greedy `\s*` has taken every leading white-space character. |
| ChapterResponse.ExtractContent | src/services/ai.ts:72-76 | Without a `CONTENT:` marker the content is the raw reply. Otherwise it is the trimmed text after the first marker. |
| ChapterResponse.Parse | src/services/ai.ts:70-77 | The title and content fallbacks apply independently. The title is the trimmed title capture, or "Untitled Chapter" with no match. The content is the trimmed text after the first `CONTENT:`, or the raw reply. |
| ChapterResponse.TitleAtWellFormedLine | src/services/ai.ts:71 | At a marker whose first non-space character starts a line ended by `\n` or the input, the capture is that line from that character. |
| ChapterResponse.TitleAtRejectsOtherTerminator | src/services/ai.ts:71 | If the title line ends at a `\r` or another terminator rather than `\n`, the match at that marker fails. |
| ChapterResponse.FormatReplyTitle | src/services/ai.ts:59-75 | A reply in the requested format yields its title, given a non-empty, trimmed, single-line title. |
| ChapterResponse.FormatReplyContent | src/services/ai.ts:61-76 | A reply in the requested format yields its content trimmed, for every title that holds no `CONTENT:`. |
| ChapterResponse.FormatReplyMarker | src/services/ai.ts:59-72 | In a reply in the requested format, the first `CONTENT:` is the one after the blank line, when the title holds none. |
| ChapterResponse.ParseFormatReply | src/services/ai.ts:57-77 | Parsing a reply in the requested format returns its title and its trimmed content, when the title is non-empty, trimmed, single-line and holds no `CONTENT:`. |
| ChapterResponse.ParseExample | src/services/ai.ts:70-77 | The canonical reply parses to ("My Title", "Hello world"). |
| ChapterResponse.CarriageReturnTitleFallsBack | src/services/ai.ts:71-76 | The reply `TITLE: Foo\r\n` gets the fallback title, and the raw reply as content: its one marker fails because the line ends at `\r`, and no later marker exists. |
| ChapterResponse.BlankTitleLineTakesNextLine | src/services/ai.ts:71-76 | A blank title line makes the title the next line ("CONTENT:"), while the content is still recovered. |
| ChapterResponse.SpaceOnlyTitleIsEmpty | src/services/ai.ts:71-76 | The reply `TITLE: \n`, one space with nothing after it, gives the empty title, not the fallback. |
| ChapterResponse.SpaceLineTakesNextLine | src/services/ai.ts:71-75 | In the reply `TITLE: \nFoo` the title line holds only a space. `\s*` runs on into the next line, and the title is "Foo". |
| Prompts.Instruction | src/services/ai.ts:14-41 | Each instruction opens with its operation's opening words, and its character at index 7 differs between the four operations. |
| Prompts.Prompt | src/services/ai.ts:12-46 | A prompt is the operation's instruction, then a blank line, then the input verbatim. |
| Prompts.Wrap | src/services/ai.ts:12-46 | The result starts with the header, has a blank line right after it, and ends with the input verbatim. |
| Prompts.Unwrap | src/services/ai.ts:12-46 | Unwrapping succeeds exactly on strings that start with the header and a blank line. |
| Prompts.UnwrapWrap | src/services/ai.ts:12-46 | Unwrapping a wrapped input gives the input back. |
| Prompts.WrapUnwrap | src/services/ai.ts:12-46 | Whatever unwrapping accepts is the wrapping of what it returns. |
| Prompts.InputOfPrompt | src/services/ai.ts:12-46 | For each of clarify, enrich, polish and generateChapter, the input can be read back out of the prompt. |
| Prompts.PromptOfInput | src/services/ai.ts:12-46 | A string that carries an input for an operation is exactly that operation's prompt for it. |
| Prompts.PromptTell | src/services/ai.ts:14-41 | Every prompt shows at index 7 the character that names its operation. |
| Prompts.PromptInjective | src/services/ai.ts:12-46 | Two prompts are equal only for the same operation and the same input. |
| Prompts.AdvancedPrompt | src/services/ai.ts:48-64 | The prompt has the fixed introduction, then the language verbatim, then `:` and a blank line, then the details verbatim, then the fixed format request. |
| Prompts.DetailsOf | src/services/ai.ts:55 | Details read back from a prompt have the length the template leaves for them. |
| Prompts.DetailsOfAdvancedPrompt | src/services/ai.ts:53-64 | The details can be read back out of the advanced prompt. |
| Prompts.AdvancedPromptOfDetails | src/services/ai.ts:53-64 | Whatever the read-back accepts is the advanced prompt for those details. |
| Prompts.AdvancedPromptInjective | src/services/ai.ts:53-64 | With languages of equal length, equal advanced prompts have equal languages and equal details. |
| Prompts.OmittedLanguageIsEnglish | src/services/ai.ts:50 | Omitting the language gives the same prompt as asking for "English", with "English" right after the introduction. |
| Prompts.AdvancedPromptShowsReplyFormat | src/services/ai.ts:57-62 | The prompt contains the sample reply in the format the parser reads. |
| Prompts.SampleReplyParses | src/services/ai.ts:59-77 | The sample reply shown to the model parses back into its two placeholders. |

## Left out

- The Gemini client, the API key and the model name (`src/services/ai.ts:1-9`) are left out. So are the network calls and their `await`s. The model covers only the text going out (prompts) and the text coming back (parser).
- clarify, enrich, polish and generateChapter return the model's reply unchanged. With no logic in that step, only their prompts are modelled.
- Persistence through zustand's `persist` middleware under the key "story-maker-storage" (`src/store.ts:34-36`, `src/store.ts:130-133`) is left out: it is a storage side effect, not a transition.
- StoryStore.AddChapter: the source calls `crypto.randomUUID()` inside the `map` callback (`src/store.ts:55-62`), once per story with the id. The model gives every such story a chapter with the one fresh id. The two differ only when story ids repeat. That never happens from the empty store on: `StoreInvariants.RunKeepsIdsUnique` keeps ids unique, and `StoreInvariants.AddChapterTouchesOneStory` shows that only one story is then reached.
- `crypto.randomUUID()` is not modelled. Its result is a caller-supplied identifier, with the precondition that it is unused. Two draws coinciding is outside the model.
- React components are not part of this model. That includes the editor's trimming of titles before `addStory`/`addChapter`, confirm dialogs and error display. Only the editor's two `find` lookups are modelled.
- Characters are Unicode scalar values, while JavaScript strings are UTF-16 code units. Every character that `\s`, `.` and `trim` single out lies in the Basic Multilingual Plane. Text outside it differs only in index arithmetic, which the model does not expose.
- Asynchrony and concurrent updates are left out. Each transition is one atomic rewrite, as `set` performs it.

=== FILE: js_text.dfy ===
/** The few pieces of ECMAScript string semantics the response parser relies
    on: which characters `\s` and `String.prototype.trim` treat as white space,
    which ones end a line (and so are refused by the regex `.`), and the
    search for the first occurrence of a literal.

    Characters are Unicode scalar values; every character these definitions
    single out lies in the Basic Multilingual Plane, where that agrees with
    the UTF-16 code units JavaScript strings are made of. */
module JsText {
  import opened Optional

  /** ECMAScript LineTerminator: the characters `.` does not match. */
  predicate IsLineTerminator(c: char) {
    c == '\n' || c == '\r' || c == '\U{2028}' || c == '\U{2029}'
  }

  /** ECMAScript WhiteSpace or LineTerminator: what `\s` matches and what
      `trim` removes. */
  predicate IsSpace(c: char) {
    || IsLineTerminator(c)
    || c == '\t' || c == '\U{000B}' || c == '\U{000C}' || c == ' '
    || c == '\U{00A0}' || c == '\U{FEFF}'
    || c == '\U{1680}' || ('\U{2000}' <= c <= '\U{200A}')
    || c == '\U{202F}' || c == '\U{205F}' || c == '\U{3000}'
  }

  predicate AllSpace(s: string) {
    forall i :: 0 <= i < |s| ==> IsSpace(s[i])
  }

  predicate NoLineTerminator(s: string) {
    forall i :: 0 <= i < |s| ==> !IsLineTerminator(s[i])
  }

  /** Neither end of `s` is white space. */
  predicate Trimmed(s: string) {
    |s| == 0 || (!IsSpace(s[0]) && !IsSpace(s[|s| - 1]))
  }

  // ---------------------------------------------------------------------
  // Trimming

  /** How many characters a greedy `\s*` consumes at the start of `s`. */
  function LeadingSpace(s: string): (n: nat)
    ensures n <= |s|
    ensures AllSpace(s[..n])
    ensures n == |s| || !IsSpace(s[n])
  {
    if |s| > 0 && IsSpace(s[0]) then
      var n := 1 + LeadingSpace(s[1..]);
      assert forall i :: 1 <= i < n ==> s[..n][i] == s[1..][..n - 1][i - 1];
      n
    else 0
  }

  /** `\s*` consumes exactly a white-space prefix that is followed by a
      non-space character or by the end of the string. */
  lemma {:induction false} LeadingSpaceOf(ws: string, rest: string)
    requires AllSpace(ws)
    requires |rest| == 0 || !IsSpace(rest[0])
    ensures LeadingSpace(ws + rest) == |ws|
  {
    if |ws| > 0 {
      assert (ws + rest)[1..] == ws[1..] + rest;
      LeadingSpaceOf(ws[1..], rest);
    } else {
      assert ws + rest == rest;
    }
  }

  /** `s` without its trailing white space. */
  function TrimEnd(s: string): (r: string)
    ensures |r| <= |s|
    ensures r == s[..|r|]
    ensures AllSpace(s[|r|..])
    ensures |r| == 0 || !IsSpace(r[|r| - 1])
  {
    if |s| > 0 && IsSpace(s[|s| - 1]) then
      var r := TrimEnd(s[..|s| - 1]);
      assert s[|r|..] == s[..|s| - 1][|r|..] + [s[|s| - 1]];
      r
    else s
  }

  /** `String.prototype.trim`. */
  function Trim(s: string): (r: string)
    ensures Trimmed(r)
    ensures LeadingSpace(s) + |r| <= |s|
    ensures r == s[LeadingSpace(s)..LeadingSpace(s) + |r|]
    ensures AllSpace(s[LeadingSpace(s) + |r|..])
  {
    var n := LeadingSpace(s);
    var r := TrimEnd(s[n..]);
    assert s[n + |r|..] == s[n..][|r|..];
    r
  }

  /** Trimming is determined by its result's shape: whatever sits between a
      white-space prefix and a white-space suffix, with no white space at
      either of its own ends, is what `trim` returns. */
  lemma TrimCharacterization(pre: string, mid: string, post: string)
    requires AllSpace(pre) && AllSpace(post)
    requires Trimmed(mid)
    ensures Trim(pre + mid + post) == mid
  {
    var s := pre + mid + post;
    if |mid| == 0 {
      assert s == (pre + post) + "";
      AllSpaceConcat(pre, post);
      LeadingSpaceOf(pre + post, "");
      assert s[|s|..] == "";
    } else {
      assert s == pre + (mid + post);
      assert (mid + post)[0] == mid[0];
      LeadingSpaceOf(pre, mid + post);
      assert s[|pre|..] == mid + post;
      TrimEndOf(mid, post);
    }
  }

  /** `trimEnd` removes exactly a white-space suffix that follows a
      non-space character or nothing at all. */
  lemma {:induction false} TrimEndOf(body: string, ws: string)
    requires AllSpace(ws)
    requires |body| == 0 || !IsSpace(body[|body| - 1])
    ensures TrimEnd(body + ws) == body
  {
    if |ws| == 0 {
      assert body + ws == body;
    } else {
      var s := body + ws;
      assert s[..|s| - 1] == body + ws[..|ws| - 1];
      assert s[|s| - 1] == ws[|ws| - 1];
      TrimEndOf(body, ws[..|ws| - 1]);
    }
  }

  /** A string with no white space at its ends is its own trim. */
  lemma TrimOfTrimmed(s: string)
    requires Trimmed(s)
    ensures Trim(s) == s
  {
    assert "" + s + "" == s;
    TrimCharacterization("", s, "");
  }

  /** White space in front of a string does not change its trim. */
  lemma TrimSkipsLeadingSpace(pre: string, s: string)
    requires AllSpace(pre)
    ensures Trim(pre + s) == Trim(s)
  {
    LeadingSpaceSkips(pre, s);
    assert (pre + s)[|pre| + LeadingSpace(s)..] == s[LeadingSpace(s)..];
  }

  /** `\s*` runs through white space in front of a string and then on as
      it would in the string alone. */
  lemma {:induction false} LeadingSpaceSkips(pre: string, s: string)
    requires AllSpace(pre)
    ensures LeadingSpace(pre + s) == |pre| + LeadingSpace(s)
  {
    if |pre| > 0 {
      assert (pre + s)[1..] == pre[1..] + s;
      LeadingSpaceSkips(pre[1..], s);
    } else {
      assert pre + s == s;
    }
  }

  lemma AllSpaceConcat(a: string, b: string)
    requires AllSpace(a) && AllSpace(b)
    ensures AllSpace(a + b)
  {
    assert forall i :: |a| <= i < |a + b| ==> (a + b)[i] == b[i - |a|];
  }

  /** Trimming never introduces a line terminator. */
  lemma TrimKeepsNoLineTerminator(s: string)
    requires NoLineTerminator(s)
    ensures NoLineTerminator(Trim(s))
  {
    var n := LeadingSpace(s);
    var t := Trim(s);
    forall i | 0 <= i < |t| ensures !IsLineTerminator(t[i]) {
      assert t[i] == s[n + i];
    }
  }

  // ---------------------------------------------------------------------
  // Searching

  /** The literal `pat` occurs in `text` starting at index `i`. */
  predicate OccursAt(text: string, pat: string, i: nat) {
    i + |pat| <= |text| && text[i..i + |pat|] == pat
  }

  predicate Contains(text: string, pat: string) {
    exists i :: 0 <= i <= |text| && OccursAt(text, pat, i)
  }

  /** The middle piece of a concatenation occurs where the first one ends. */
  lemma OccursInMiddle(a: string, b: string, c: string)
    ensures OccursAt(a + b + c, b, |a|)
    ensures Contains(a + b + c, b)
  {
    var s := a + b + c;
    assert s[|a|..|a| + |b|] == b;
    assert 0 <= |a| <= |s| && OccursAt(s, b, |a|);
  }

  /** The first occurrence of `pat` at index `from` or later. */
  function IndexFrom(text: string, pat: string, from: nat): (r: Option<nat>)
    requires from <= |text|
    ensures r.Some? ==> from <= r.value && OccursAt(text, pat, r.value)
    ensures r.Some? ==> forall j: nat :: from <= j < r.value ==> !OccursAt(text, pat, j)
    ensures r.None? ==> forall j: nat :: from <= j ==> !OccursAt(text, pat, j)
    decreases |text| - from
  {
    if OccursAt(text, pat, from) then Some(from)
    else if from == |text| then None
    else IndexFrom(text, pat, from + 1)
  }

  /** The first occurrence of `pat` in `text`, as an unanchored regex built
      from a literal finds it. */
  function IndexOf(text: string, pat: string): (r: Option<nat>)
    ensures r.Some? <==> Contains(text, pat)
    ensures r.Some? ==> OccursAt(text, pat, r.value)
    ensures r.Some? ==> forall j: nat :: j < r.value ==> !OccursAt(text, pat, j)
  {
    IndexFrom(text, pat, 0)
  }
}

=== FILE: optional.dfy ===
/** An optional value: the model's rendering of a TypeScript `T | null`
    (or of an omitted optional parameter). */
module Optional {

  datatype Option<+T> = None | Some(value: T) {

    /** The wrapped value, or `default` when there is none. */
    function GetOr(default: T): T {
      match this
      case Some(v) => v
      case None => default
    }
  }
}

=== FILE: prompts.dfy ===
/** The prompts the AI service sends to the model.

    The four single-text operations (clarify, enrich, polish and
    generate-chapter) all wrap the user's text the same way: a fixed
    instruction, a blank line, then the text itself. The advanced chapter
    generator splices a language and a block of details into a longer
    template that also shows the model the reply format the parser expects. */
module Prompts {
  import opened Optional
  import opened JsText
  import opened ChapterResponse

  /** The four operations that send one text and return the model's answer. */
  datatype Rewrite = Clarify | Enrich | Polish | GenerateChapter

  /** The opening words of each instruction, which tell the four apart.
      Each instruction is one sentence; it is split into these short opening
      words and a named remainder so that proofs can look at the opening
      characters without unfolding the whole sentence. */
  function Opening(op: Rewrite): string {
    match op
    case Clarify => "Please improve"
    case Enrich => "Please enhance"
    case Polish => "Please polish"
    case GenerateChapter => "Write a chapter"
  }

  /** The rest of each instruction, after its opening words. */
  function Rest(op: Rewrite): string {
    match op
    case Clarify => ClarifyRest
    case Enrich => EnrichRest
    case Polish => PolishRest
    case GenerateChapter => GenerateChapterRest
  }

  const ClarifyRest: string :=
    " the clarity of the following text while maintaining its original meaning and style. Make it more readable and easier to understand:"
  const EnrichRest: string :=
    " the following text by adding more vivid imagery, sensory details, and descriptive language while maintaining the original story and tone:"
  const PolishRest: string :=
    " the following text by fixing any grammar, spelling, or punctuation errors, and improve the overall writing quality while maintaining the original style and meaning:"
  const GenerateChapterRest: string :=
    " of approximately 300 words based on the following prompt. Make it engaging and well-written:"

  /** The fixed instruction each operation puts in front of its text. It
      opens with the operation's opening words, and its character at index 7
      names the operation. */
  function Instruction(op: Rewrite): (r: string)
    ensures |Opening(op)| < |r| && r[..|Opening(op)|] == Opening(op)
    ensures r[7] == Tell(op)
  {
    IndexInHead(Opening(op), Rest(op), 7);
    assert (Opening(op) + Rest(op))[..|Opening(op)|] == Opening(op);
    Opening(op) + Rest(op)
  }

  /** The blank line between an instruction and the text it applies to. */
  const BlankLine: string := "\n\n"

  /** `header`, a blank line, then `input` verbatim. */
  function Wrap(header: string, input: string): (r: string)
    ensures |r| == |header| + |BlankLine| + |input|
    ensures r[..|header|] == header
    ensures OccursAt(r, BlankLine, |header|)
    ensures r[|header| + |BlankLine|..] == input
  {
    var r := header + BlankLine + input;
    assert r[|header|..|header| + |BlankLine|] == BlankLine;
    r
  }

  /** What `Wrap(header, _)` was applied to, if `prompt` is such a result. */
  function Unwrap(header: string, prompt: string): (r: Option<string>)
    ensures r.Some? <==> OccursAt(prompt, header + BlankLine, 0)
  {
    var n := |header| + |BlankLine|;
    if n <= |prompt| && prompt[..n] == header + BlankLine then Some(prompt[n..]) else None
  }

  lemma UnwrapWrap(header: string, input: string)
    ensures Unwrap(header, Wrap(header, input)) == Some(input)
  {
    var r := Wrap(header, input);
    assert r[..|header| + |BlankLine|] == header + BlankLine;
  }

  lemma WrapUnwrap(header: string, prompt: string)
    requires Unwrap(header, prompt).Some?
    ensures Wrap(header, Unwrap(header, prompt).value) == prompt
  {
    var n := |header| + |BlankLine|;
    assert prompt == prompt[..n] + prompt[n..];
  }

  /** The prompt an operation sends for `input`: its instruction, a blank
      line, then the input verbatim. */
  function Prompt(op: Rewrite, input: string): (r: string)
    ensures |r| == |Instruction(op)| + |BlankLine| + |input|
    ensures r[..|Instruction(op)|] == Instruction(op)
    ensures OccursAt(r, BlankLine, |Instruction(op)|)
    ensures r[|Instruction(op)| + |BlankLine|..] == input
  {
    Wrap(Instruction(op), input)
  }

  /** The text a prompt of operation `op` carries, if it is one. */
  function InputOf(op: Rewrite, prompt: string): Option<string> {
    Unwrap(Instruction(op), prompt)
  }

  /** Reading the text back out of a prompt gives the text that went in. */
  lemma InputOfPrompt(op: Rewrite, input: string)
    ensures InputOf(op, Prompt(op, input)) == Some(input)
  {
    UnwrapWrap(Instruction(op), input);
  }

  /** Whatever `InputOf` accepts is exactly the prompt built from what it
      returns. */
  lemma PromptOfInput(op: Rewrite, prompt: string)
    requires InputOf(op, prompt).Some?
    ensures Prompt(op, InputOf(op, prompt).value) == prompt
  {
    WrapUnwrap(Instruction(op), prompt);
  }

  /** The character at index 7 of each instruction, the first position
      where the four openings all differ; it names the operation a prompt
      was built for. */
  function Tell(op: Rewrite): char {
    match op
    case Clarify => 'i'
    case Enrich => 'e'
    case Polish => 'p'
    case GenerateChapter => ' '
  }

  lemma IndexInHead(a: string, b: string, i: nat)
    requires i < |a|
    ensures i < |a + b| && (a + b)[i] == a[i]
  {
  }

  /** A prompt shows its operation's distinguishing character at index 7. */
  lemma PromptTell(op: Rewrite, input: string)
    ensures |Prompt(op, input)| > 7 && Prompt(op, input)[7] == Tell(op)
  {
    var r, i := Prompt(op, input), Instruction(op);
    assert r[7] == r[..|i|][7];
  }

  /** Different operations never send the same prompt, and one operation
      never sends the same prompt for two different texts. */
  lemma PromptInjective(a: Rewrite, x: string, b: Rewrite, y: string)
    requires Prompt(a, x) == Prompt(b, y)
    ensures a == b && x == y
  {
    PromptTell(a, x);
    PromptTell(b, y);
    assert a == b;
    UnwrapWrap(Instruction(a), x);
    UnwrapWrap(Instruction(a), y);
  }

  // ---------------------------------------------------------------------
  // The advanced chapter prompt

  /** The language the advanced generator writes in when none is given. */
  const DefaultLanguage: string := "English"

  /** The language actually spliced in: the default parameter value replaces
      an omitted argument only. */
  function Language(language: Option<string>): string {
    language.GetOr(DefaultLanguage)
  }

  const AdvancedIntro: string :=
    "Create a detailed chapter outline and content based on the following details. The chapter should be approximately 500 words and include all the specified elements. Write in "

  /** What separates the language from the details. */
  const LanguageEnd: string := ":\n\n"

  /** The reply the prompt shows the model, with its two placeholders. */
  const PlaceholderTitle: string := "[Your suggested title here]"
  const PlaceholderContent: string := "[The actual chapter content here]"

  /** What follows the details: the request for a title and a content, the
      sample reply, and a closing note. */
  const FormatRequest: string :=
    "\n\nFirst, suggest a title for this chapter, then provide the chapter content. Format your response exactly like this:\n\n"
  const ClosingNote: string := "\n\nDo not include any outline or other sections in the response."
  const SampleReply: string := FormatReply(PlaceholderTitle, PlaceholderContent)
  const AdvancedOutro: string := FormatRequest + SampleReply + ClosingNote

  /** Where the details start in an advanced prompt written in `lang`. */
  function DetailsStart(lang: string): nat {
    |AdvancedIntro| + |lang| + |LanguageEnd|
  }

  /** `generateAdvancedChapter`'s prompt: the language and the details, each
      verbatim, inside the fixed template. */
  function AdvancedPrompt(details: string, language: Option<string>): (r: string)
    ensures |r| == DetailsStart(Language(language)) + |details| + |AdvancedOutro|
    ensures r[..|AdvancedIntro|] == AdvancedIntro
    ensures OccursAt(r, Language(language), |AdvancedIntro|)
    ensures OccursAt(r, LanguageEnd, |AdvancedIntro| + |Language(language)|)
    ensures OccursAt(r, details, DetailsStart(Language(language)))
    ensures r[DetailsStart(Language(language)) + |details|..] == AdvancedOutro
  {
    Splice(AdvancedIntro, Language(language), LanguageEnd, details, AdvancedOutro)
  }

  /** Five pieces laid end to end, each found where the ones before it end. */
  function Splice(a: string, b: string, c: string, d: string, e: string): (r: string)
    ensures |r| == |a| + |b| + |c| + |d| + |e|
    ensures r[..|a|] == a
    ensures OccursAt(r, b, |a|)
    ensures OccursAt(r, c, |a| + |b|)
    ensures OccursAt(r, d, |a| + |b| + |c|)
    ensures r[|a| + |b| + |c| + |d|..] == e
  {
    var r := a + b + c + d + e;
    assert r[|a|..|a| + |b|] == b;
    assert r[|a| + |b|..|a| + |b| + |c|] == c;
    assert r[|a| + |b| + |c|..|a| + |b| + |c| + |d|] == d;
    r
  }

  /** The details an advanced prompt in language `lang` carries, if it is
      one. */
  function DetailsOf(prompt: string, lang: string): (r: Option<string>)
    ensures r.Some? ==> |r.value| == |prompt| - DetailsStart(lang) - |AdvancedOutro|
  {
    var start := DetailsStart(lang);
    if start + |AdvancedOutro| <= |prompt|
      && prompt[..start] == AdvancedIntro + lang + LanguageEnd
      && prompt[|prompt| - |AdvancedOutro|..] == AdvancedOutro
    then Some(prompt[start..|prompt| - |AdvancedOutro|])
    else None
  }

  /** The details can be read back out of an advanced prompt. */
  lemma DetailsOfAdvancedPrompt(details: string, language: Option<string>)
    ensures DetailsOf(AdvancedPrompt(details, language), Language(language)) == Some(details)
  {
    var lang := Language(language);
    var r := AdvancedPrompt(details, language);
    var start := DetailsStart(lang);
    assert r[..start] == AdvancedIntro + lang + LanguageEnd;
    assert r[start..|r| - |AdvancedOutro|] == details;
  }

  /** Whatever `DetailsOf` accepts is the advanced prompt built from it. */
  lemma AdvancedPromptOfDetails(prompt: string, lang: string)
    requires DetailsOf(prompt, lang).Some?
    ensures AdvancedPrompt(DetailsOf(prompt, lang).value, Some(lang)) == prompt
  {
    var start := DetailsStart(lang);
    var end := |prompt| - |AdvancedOutro|;
    assert prompt == prompt[..start] + prompt[start..end] + prompt[end..];
  }

  /** Two advanced prompts in languages of the same length are equal only when
      language and details both are. */
  lemma AdvancedPromptInjective(d1: string, l1: Option<string>, d2: string, l2: Option<string>)
    requires |Language(l1)| == |Language(l2)|
    requires AdvancedPrompt(d1, l1) == AdvancedPrompt(d2, l2)
    ensures Language(l1) == Language(l2) && d1 == d2
  {
    var r := AdvancedPrompt(d1, l1);
    var start := |AdvancedIntro|;
    assert Language(l1) == r[start..start + |Language(l1)|];
    assert Language(l2) == r[start..start + |Language(l2)|];
    DetailsOfAdvancedPrompt(d1, l1);
    DetailsOfAdvancedPrompt(d2, l2);
  }

  /** Omitting the language is the same as asking for English. */
  lemma OmittedLanguageIsEnglish(details: string)
    ensures AdvancedPrompt(details, None) == AdvancedPrompt(details, Some("English"))
    ensures OccursAt(AdvancedPrompt(details, None), "English", |AdvancedIntro|)
  {
  }

  /** The prompt shows the model a reply in the format the parser reads. */
  lemma AdvancedPromptShowsReplyFormat(details: string, language: Option<string>)
    ensures Contains(AdvancedPrompt(details, language), SampleReply)
  {
    var front := AdvancedIntro + Language(language) + LanguageEnd + details;
    Regroup(front, FormatRequest, SampleReply, ClosingNote);
    OccursInMiddle(front + FormatRequest, SampleReply, ClosingNote);
  }

  lemma Regroup(x: string, f: string, s: string, c: string)
    ensures x + (f + s + c) == (x + f) + s + c
  {
  }

  /** A reply that follows the shown format to the letter parses back into its
      placeholders. */
  lemma SampleReplyParses()
    ensures Parse(SampleReply)
      == Generated(PlaceholderTitle, PlaceholderContent)
  {
    SampleShapes();
    ParseFormatReply(PlaceholderTitle, PlaceholderContent);
    TrimOfTrimmed(PlaceholderContent);
  }

  lemma SampleShapes()
    ensures Trimmed(PlaceholderTitle) && NoLineTerminator(PlaceholderTitle)
    ensures !Contains(PlaceholderTitle, ContentMarker)
    ensures Trimmed(PlaceholderContent)
  {
    AbsentFirstChar(PlaceholderTitle, ContentMarker);
  }
}

=== FILE: response.dfy ===
/** How `generateAdvancedChapter` turns the model's reply into a title and a
    chapter body. Two regular expressions are applied to the raw reply, each
    on its own:

      title:   /TITLE:\s*(.+?)(?:\n|$)/   then trimmed, else "Untitled Chapter"
      content: /CONTENT:\s*([\s\S]*)/     then trimmed, else the raw reply

    Both are written out here as explicit searches that follow ECMAScript's
    backtracking order, so that the odd corners (a `\r` before the newline, a
    `\s*` that swallows line breaks and backs off) come out as they do in the
    source. */
module ChapterResponse {
  import opened Optional
  import opened JsText

  const TitleMarker: string := "TITLE:"
  const ContentMarker: string := "CONTENT:"
  const UntitledTitle: string := "Untitled Chapter"

  /** The parsed reply. */
  datatype Generated = Generated(title: string, content: string)

  // ---------------------------------------------------------------------
  // Lines

  /** The index of the first line terminator at or after `i`, or the end of
      `text`: where a run of `.` starting at `i` must stop. */
  function LineEnd(text: string, i: nat): (e: nat)
    requires i <= |text|
    ensures i <= e <= |text|
    ensures NoLineTerminator(text[i..e])
    ensures e == |text| || IsLineTerminator(text[e])
    decreases |text| - i
  {
    if i == |text| || IsLineTerminator(text[i]) then i
    else
      var e := LineEnd(text, i + 1);
      assert forall k :: 1 <= k < e - i ==> text[i..e][k] == text[i + 1..e][k - 1];
      e
  }

  /** `LineEnd` is the only index with its two properties. */
  lemma LineEndUnique(text: string, i: nat, e: nat)
    requires i <= e <= |text|
    requires NoLineTerminator(text[i..e])
    requires e == |text| || IsLineTerminator(text[e])
    ensures LineEnd(text, i) == e
  {
  }

  /** A line may end a title capture only at a `\n` or at the end of input:
      the `(?:\n|$)` after the group. */
  predicate EndsTitleLine(text: string, e: nat) {
    e == |text| || (e < |text| && text[e] == '\n')
  }

  // ---------------------------------------------------------------------
  // The title regex

  /** The lazy `.+?` has taken `text[g..e]` (at least one character); try the
      continuation `(?:\n|$)` at `e`, and when it fails take one more
      character, which `.` refuses if it is a line terminator. Returns where
      the capture ends. */
  function LazyCapture(text: string, e: nat): (r: Option<nat>)
    requires e <= |text|
    ensures r.Some? ==> e <= r.value <= |text| && NoLineTerminator(text[e..r.value])
    ensures r.Some? ==> EndsTitleLine(text, r.value)
    decreases |text| - e
  {
    if e == |text| || text[e] == '\n' then Some(e)
    else if IsLineTerminator(text[e]) then None
    else LazyCapture(text, e + 1)
  }

  /** The lazy expansion succeeds exactly when the line it is on ends with a
      `\n` or with the input, and it then stops at that line end. */
  lemma {:induction false} LazyCaptureIsLineEnd(text: string, e: nat)
    requires e <= |text|
    ensures LazyCapture(text, e) ==
      (if EndsTitleLine(text, LineEnd(text, e)) then Some(LineEnd(text, e)) else None)
    decreases |text| - e
  {
    if e < |text| && text[e] != '\n' && !IsLineTerminator(text[e]) {
      LazyCaptureIsLineEnd(text, e + 1);
      LineEndUnique(text, e, LineEnd(text, e + 1));
    }
  }

  /** `(.+?)(?:\n|$)` tried with the capture starting at `g`: the end of the
      capture, if the attempt succeeds. */
  function CaptureFrom(text: string, g: nat): (r: Option<nat>)
    requires g <= |text|
    ensures r.Some? ==> g < r.value <= |text| && NoLineTerminator(text[g..r.value])
    ensures r.Some? ==> EndsTitleLine(text, r.value)
    ensures r == (if g < |text| && !IsLineTerminator(text[g]) && EndsTitleLine(text, LineEnd(text, g))
                  then Some(LineEnd(text, g)) else None)
  {
    if g < |text| && !IsLineTerminator(text[g]) then
      LazyCaptureIsLineEnd(text, g + 1);
      LineEndUnique(text, g, LineEnd(text, g + 1));
      LazyCapture(text, g + 1)
    else None
  }

  /** `\s*` has consumed `text[q..q + k]`; try the rest of the pattern, and on
      failure give back one character at a time, down to none. Returns the
      captured span. */
  function Backtrack(text: string, q: nat, k: nat): (r: Option<(nat, nat)>)
    requires q + k <= |text|
    ensures r.Some? ==> q <= r.value.0 <= q + k && CaptureFrom(text, r.value.0) == Some(r.value.1)
    ensures r.Some? ==> forall g :: r.value.0 < g <= q + k ==> CaptureFrom(text, g).None?
    ensures r.None? ==> forall g :: q <= g <= q + k ==> CaptureFrom(text, g).None?
    decreases k
  {
    match CaptureFrom(text, q + k)
    case Some(e) => Some((q + k, e))
    case None => if k == 0 then None else Backtrack(text, q, k - 1)
  }

  /** The whole title regex attempted at start position `p`: the marker, a
      greedy `\s*`, then the capture. */
  function TitleAt(text: string, p: nat): (r: Option<string>)
    requires p <= |text|
    ensures r.Some? ==> OccursAt(text, TitleMarker, p)
    ensures r.Some? ==> |r.value| > 0 && NoLineTerminator(r.value)
    ensures r.Some? <==>
      && OccursAt(text, TitleMarker, p)
      && exists g :: p + |TitleMarker| <= g <= TitleStart(text, p) && CaptureFrom(text, g).Some?
    ensures r.Some? ==> exists g ::
      && p + |TitleMarker| <= g <= TitleStart(text, p)
      && CaptureFrom(text, g) == Some(LineEnd(text, g))
      && r.value == text[g..LineEnd(text, g)]
      && forall h :: g < h <= TitleStart(text, p) ==> CaptureFrom(text, h).None?
  {
    if OccursAt(text, TitleMarker, p) then
      var q := p + |TitleMarker|;
      match Backtrack(text, q, LeadingSpace(text[q..]))
      case Some((g, e)) => Some(text[g..e])
      case None => None
    else None
  }

  /** `RegExp.prototype.exec` without the global flag: the attempt at `p`,
      then at `p + 1`, and so on up to the end of the input. */
  function TitleSearch(text: string, p: nat): (r: Option<string>)
    requires p <= |text|
    ensures r.Some? ==> |r.value| > 0 && NoLineTerminator(r.value)
    decreases |text| - p
  {
    match TitleAt(text, p)
    case Some(t) => Some(t)
    case None => if p == |text| then None else TitleSearch(text, p + 1)
  }

  /** The search reports the capture of the leftmost start position that
      succeeds, and fails only when every start position fails. */
  lemma TitleSearchIsLeftmost(text: string, p: nat)
    requires p <= |text|
    ensures TitleSearch(text, p).Some? ==>
      exists at :: p <= at <= |text| && TitleAt(text, at) == TitleSearch(text, p) &&
                   (forall j :: p <= j < at ==> TitleAt(text, j).None?)
    ensures TitleSearch(text, p).None? ==> forall j :: p <= j <= |text| ==> TitleAt(text, j).None?
  {
    TitleSearchFindsLeftmost(text, p);
    TitleSearchFailsEverywhere(text, p);
  }

  /** A successful search is the attempt at some start, and every earlier
      start fails. */
  lemma {:induction false} TitleSearchFindsLeftmost(text: string, p: nat)
    requires p <= |text|
    ensures TitleSearch(text, p).Some? ==>
      exists at :: p <= at <= |text| && TitleAt(text, at) == TitleSearch(text, p) &&
                   (forall j :: p <= j < at ==> TitleAt(text, j).None?)
    decreases |text| - p
  {
    if TitleAt(text, p).None? && p < |text| && TitleSearch(text, p + 1).Some? {
      TitleSearchFindsLeftmost(text, p + 1);
      var at :| p + 1 <= at <= |text| && TitleAt(text, at) == TitleSearch(text, p + 1) &&
                (forall j :: p + 1 <= j < at ==> TitleAt(text, j).None?);
      NoneBefore(text, p, at);
    }
  }

  /** A failure at `p` extends a run of failures that starts at `p + 1`. */
  lemma NoneBefore(text: string, p: nat, at: nat)
    requires p < at <= |text|
    requires TitleAt(text, p).None?
    requires forall j :: p + 1 <= j < at ==> TitleAt(text, j).None?
    ensures forall j :: p <= j < at ==> TitleAt(text, j).None?
  {
  }

  /** A failed search means every start from `p` on fails. */
  lemma {:induction false} TitleSearchFailsEverywhere(text: string, p: nat)
    requires p <= |text|
    ensures TitleSearch(text, p).None? ==> forall j :: p <= j <= |text| ==> TitleAt(text, j).None?
    decreases |text| - p
  {
    if TitleAt(text, p).None? && p < |text| {
      TitleSearchFailsEverywhere(text, p + 1);
    }
  }

  /** `text.match(/TITLE:\s*(.+?)(?:\n|$)/)?.[1]`. */
  function TitleCapture(text: string): (r: Option<string>)
    ensures r.None? <==> forall p :: 0 <= p <= |text| ==> TitleAt(text, p).None?
    ensures !Contains(text, TitleMarker) ==> r.None?
  {
    TitleSearchIsLeftmost(text, 0);
    TitleSearch(text, 0)
  }

  /** The title is the trimmed capture at the leftmost marker where the
      regex matches; with `TitleAt`'s contract, that capture is the line
      after the greatest start the greedy `\s*` can give back to. */
  lemma ExtractTitleIsFirstMatch(text: string)
    ensures TitleCapture(text).Some? ==> exists p ::
      && 0 <= p <= |text| && TitleAt(text, p).Some?
      && ExtractTitle(text) == Trim(TitleAt(text, p).value)
      && forall j :: 0 <= j < p ==> TitleAt(text, j).None?
  {
    TitleSearchIsLeftmost(text, 0);
  }

  /** The title `generateAdvancedChapter` returns: the trimmed capture, or the
      fixed fallback when the regex finds nothing. */
  function ExtractTitle(text: string): (r: string)
    ensures !Contains(text, TitleMarker) ==> r == UntitledTitle
    ensures r == UntitledTitle || (NoLineTerminator(r) && Trimmed(r))
    ensures TitleCapture(text).None? ==> r == UntitledTitle
    ensures TitleCapture(text).Some? ==> r == Trim(TitleCapture(text).value)
  {
    match TitleCapture(text)
    case Some(t) =>
      TrimKeepsNoLineTerminator(t);
      Trim(t)
    case None => UntitledTitle
  }

  // ---------------------------------------------------------------------
  // The content regex

  /** `text.match(/CONTENT:\s*([\s\S]*)/)?.[1]`: at the first marker, a greedy
      `\s*` and then everything to the end. `[\s\S]*` accepts anything, so the
      first attempt at the first marker always succeeds. */
  function ContentCapture(text: string): (r: Option<string>)
    ensures r.Some? <==> Contains(text, ContentMarker)
    ensures r.Some? ==>
      var rest := text[IndexOf(text, ContentMarker).value + |ContentMarker|..];
      && |r.value| <= |rest|
      && rest[|rest| - |r.value|..] == r.value
      && AllSpace(rest[..|rest| - |r.value|])
      && (|r.value| == 0 || !IsSpace(r.value[0]))
  {
    match IndexOf(text, ContentMarker)
    case Some(p) =>
      var rest := text[p + |ContentMarker|..];
      Some(rest[LeadingSpace(rest)..])
    case None => None
  }

  /** The content `generateAdvancedChapter` returns: the trimmed capture, or
      the raw reply, untouched, when there is no marker. */
  function ExtractContent(text: string): (r: string)
    ensures !Contains(text, ContentMarker) ==> r == text
    ensures IndexOf(text, ContentMarker).Some? ==>
      r == Trim(text[IndexOf(text, ContentMarker).value + |ContentMarker|..])
  {
    match ContentCapture(text)
    case Some(c) =>
      var p := IndexOf(text, ContentMarker).value;
      var rest := text[p + |ContentMarker|..];
      var n := LeadingSpace(rest);
      assert rest == rest[..n] + rest[n..];
      TrimSkipsLeadingSpace(rest[..n], rest[n..]);
      Trim(c)
    case None => text
  }

  // ---------------------------------------------------------------------
  // The parse

  /** Lines 71-77 of the service: two independent extractions with their own
      fallbacks. */
  function Parse(text: string): (r: Generated)
    ensures !Contains(text, TitleMarker) ==> r.title == UntitledTitle
    ensures r.title == UntitledTitle || (NoLineTerminator(r.title) && Trimmed(r.title))
    ensures TitleCapture(text).None? ==> r.title == UntitledTitle
    ensures TitleCapture(text).Some? ==> r.title == Trim(TitleCapture(text).value)
    ensures !Contains(text, ContentMarker) ==> r.content == text
    ensures IndexOf(text, ContentMarker).Some? ==>
      r.content == Trim(text[IndexOf(text, ContentMarker).value + |ContentMarker|..])
  {
    Generated(ExtractTitle(text), ExtractContent(text))
  }

  // ---------------------------------------------------------------------
  // What the title regex does at one marker

  /** Where a title capture would start after the marker at `p`: past the
      marker and all the white space the greedy `\s*` can take. */
  function TitleStart(text: string, p: nat): (g: nat)
    requires p + |TitleMarker| <= |text|
    ensures p + |TitleMarker| <= g <= |text|
  {
    p + |TitleMarker| + LeadingSpace(text[p + |TitleMarker|..])
  }

  /** After the marker and its white space, a line that ends with `\n` or
      with the input is captured whole, from its first non-blank character. */
  lemma TitleAtWellFormedLine(text: string, p: nat)
    requires OccursAt(text, TitleMarker, p)
    requires TitleStart(text, p) < |text|
    requires EndsTitleLine(text, LineEnd(text, TitleStart(text, p)))
    ensures TitleAt(text, p) == Some(text[TitleStart(text, p)..LineEnd(text, TitleStart(text, p))])
  {
    var q := p + |TitleMarker|;
    var m := LeadingSpace(text[q..]);
    var g := q + m;
    assert TitleStart(text, p) == g;
    assert text[g] == text[q..][m];
    assert !IsLineTerminator(text[g]);
    assert CaptureFrom(text, g) == Some(LineEnd(text, g));
    assert Backtrack(text, q, m) == Some((g, LineEnd(text, g)));
  }

  lemma NoLineTerminatorJoin(text: string, a: nat, b: nat, c: nat)
    requires a <= b <= c <= |text|
    requires NoLineTerminator(text[a..b]) && NoLineTerminator(text[b..c])
    ensures NoLineTerminator(text[a..c])
  {
    forall i | a <= i < c ensures !IsLineTerminator(text[i]) {
      if i < b { assert text[i] == text[a..b][i - a]; } else { assert text[i] == text[b..c][i - b]; }
    }
    assert forall i :: 0 <= i < c - a ==> text[a..c][i] == text[a + i];
  }

  lemma NoLineTerminatorSuffix(text: string, a: nat, h: nat, c: nat)
    requires a <= h <= c <= |text|
    requires NoLineTerminator(text[a..c])
    ensures NoLineTerminator(text[h..c])
  {
    assert forall i :: 0 <= i < c - h ==> text[h..c][i] == text[a..c][h - a + i];
  }

  /** When the characters after the marker stay on one line and that line
      ends with a terminator other than `\n` (a `\r` of a `\r\n` pair, or
      U+2028 or U+2029), no amount of backtracking finds a match there. */
  lemma TitleAtRejectsOtherTerminator(text: string, p: nat)
    requires OccursAt(text, TitleMarker, p)
    requires TitleStart(text, p) < |text|
    requires NoLineTerminator(text[p + |TitleMarker|..TitleStart(text, p)])
    requires !EndsTitleLine(text, LineEnd(text, TitleStart(text, p)))
    ensures TitleAt(text, p) == None
  {
    var q := p + |TitleMarker|;
    var m := LeadingSpace(text[q..]);
    var g := q + m;
    var e := LineEnd(text, g);
    assert TitleStart(text, p) == g;
    NoLineTerminatorJoin(text, q, g, e);
    CapturesFailOnLine(text, q, g, e);
    BacktrackFails(text, q, m);
  }

  /** When no capture start in range succeeds, backtracking fails. */
  lemma BacktrackFails(text: string, q: nat, k: nat)
    requires q + k <= |text|
    requires forall h :: q <= h <= q + k ==> CaptureFrom(text, h).None?
    ensures Backtrack(text, q, k).None?
  {
  }

  /** Every capture start from `q` to `g` lies on a line that ends with a
      terminator other than `\n`, so each one fails. */
  lemma CapturesFailOnLine(text: string, q: nat, g: nat, e: nat)
    requires q <= g <= e <= |text|
    requires NoLineTerminator(text[q..e])
    requires e == |text| || IsLineTerminator(text[e])
    requires !EndsTitleLine(text, e)
    ensures forall h :: q <= h <= g ==> CaptureFrom(text, h).None?
  {
    forall h | q <= h <= g ensures CaptureFrom(text, h).None? {
      NoLineTerminatorSuffix(text, q, h, e);
      CaptureFailsBeforeBadEnd(text, h, e);
    }
  }

  /** A capture cannot start on a line that ends at a terminator other than
      `\n`. */
  lemma CaptureFailsBeforeBadEnd(text: string, h: nat, e: nat)
    requires h <= e <= |text|
    requires NoLineTerminator(text[h..e])
    requires e == |text| || IsLineTerminator(text[e])
    requires !EndsTitleLine(text, e)
    ensures CaptureFrom(text, h).None?
  {
    LineEndUnique(text, h, e);
  }

  /** The regex reports the first marker whose attempt succeeds; in
      particular, a successful attempt at the first marker is the result. */
  lemma TitleCaptureAtFirstMarker(text: string, p: nat)
    requires OccursAt(text, TitleMarker, p)
    requires forall j :: 0 <= j < p ==> !OccursAt(text, TitleMarker, j)
    requires TitleAt(text, p).Some?
    ensures TitleCapture(text) == TitleAt(text, p)
  {
    TitleSearchIsLeftmost(text, 0);
  }

  /** When every attempt fails, the fallback title is used. */
  lemma NoTitleMatchFallsBack(text: string)
    requires forall p :: 0 <= p <= |text| ==> TitleAt(text, p).None?
    ensures ExtractTitle(text) == UntitledTitle
  {
    TitleSearchIsLeftmost(text, 0);
  }

  // ---------------------------------------------------------------------
  // The reply format the prompt asks for

  /** A reply laid out exactly as the advanced prompt requests. */
  function FormatReply(title: string, content: string): string {
    "TITLE: " + title + "\n\nCONTENT:\n" + content
  }

  /** The title of a reply in the requested format is the title it was
      written with, when that title is one non-blank line with no white space
      at its ends. */
  lemma FormatReplyTitle(title: string, content: string)
    requires |title| > 0 && Trimmed(title) && NoLineTerminator(title)
    ensures ExtractTitle(FormatReply(title, content)) == title
  {
    var text := FormatReply(title, content);
    var n := |title|;
    assert OccursAt(text, TitleMarker, 0) by {
      assert text[..6] == TitleMarker;
    }
    var tail := text[6..];
    assert tail[0] == ' ' && tail[1] == title[0];
    assert LeadingSpace(tail) == 1 by {
      assert tail[1..][0] == title[0];
    }
    assert TitleStart(text, 0) == 7;
    assert text[7..7 + n] == title;
    assert text[7 + n] == '\n';
    LineEndUnique(text, 7, 7 + n);
    TitleAtWellFormedLine(text, 0);
    TitleCaptureAtFirstMarker(text, 0);
    TrimOfTrimmed(title);
  }

  /** The content of a reply in the requested format is the content it was
      written with, trimmed, when the title line does not itself hold the
      content marker. */
  lemma FormatReplyContent(title: string, content: string)
    requires !Contains(title, ContentMarker)
    ensures ExtractContent(FormatReply(title, content)) == Trim(content)
  {
    var text := FormatReply(title, content);
    var at := |title| + 9;
    FormatReplyMarker(title, content);
    assert text[at + 8..] == "\n" + content;
    TrimSkipsLeadingSpace("\n", content);
  }

  /** In a reply in the requested format, the first content marker is the
      one after the blank line. */
  lemma FormatReplyMarker(title: string, content: string)
    requires !Contains(title, ContentMarker)
    ensures IndexOf(FormatReply(title, content), ContentMarker) == Some(|title| + 9)
  {
    var text := FormatReply(title, content);
    var at := |title| + 9;
    assert text[at..at + 8] == ContentMarker;
    NoEarlyContentMarker(title, content);
    assert OccursAt(text, ContentMarker, at);
  }

  /** No content marker starts inside the title line or the blank line. */
  lemma NoEarlyContentMarker(title: string, content: string)
    requires !Contains(title, ContentMarker)
    ensures forall j :: 0 <= j < |title| + 9 ==> !OccursAt(FormatReply(title, content), ContentMarker, j)
  {
    var text := FormatReply(title, content);
    var n := |title|;
    forall j | 0 <= j < n + 9 ensures !OccursAt(text, ContentMarker, j) {
      if j < 7 {
        assert text[j] == "TITLE: "[j];
        assert text[j..j + 8][0] == text[j];
      } else if j + 8 <= 7 + n {
        assert text[j..j + 8] == title[j - 7..j + 1];
        assert !OccursAt(title, ContentMarker, j - 7);
      } else if j <= 7 + n {
        assert text[j..j + 8][7 + n - j] == text[7 + n];
      } else {
        assert text[j..j + 8][0] == text[j];
      }
    }
  }

  /** A reply in the requested format parses back to its title and to its
      content up to surrounding white space: the parse inverts the layout the
      prompt asks for. */
  lemma ParseFormatReply(title: string, content: string)
    requires |title| > 0 && Trimmed(title) && NoLineTerminator(title)
    requires !Contains(title, ContentMarker)
    ensures Parse(FormatReply(title, content)) == Generated(title, Trim(content))
  {
    FormatReplyTitle(title, content);
    FormatReplyContent(title, content);
  }

  // ---------------------------------------------------------------------
  // Examples
  //
  // Each example is split into small lemmas, one fact about the literal per
  // lemma: a proof that unfolds a string literal in full is costly for the
  // solver, and the pieces keep every proof obligation small.

  /** A literal cannot occur where its first character never does. */
  lemma AbsentFirstChar(text: string, pat: string)
    requires |pat| > 0
    requires forall i :: 0 <= i < |text| ==> text[i] != pat[0]
    ensures !Contains(text, pat)
  {
    forall i | 0 <= i <= |text| && i + |pat| <= |text| ensures !OccursAt(text, pat, i) {
      assert text[i..i + |pat|][0] == text[i];
    }
  }

  /** The canonical reply, as the advanced prompt asks for it. */
  lemma ParseExample()
    ensures Parse("TITLE: My Title\n\nCONTENT:\nHello world") == Generated("My Title", "Hello world")
  {
    assert FormatReply("My Title", "Hello world") == "TITLE: My Title\n\nCONTENT:\nHello world";
    ParseExampleReply();
  }

  lemma ParseExampleReply()
    ensures Parse(FormatReply("My Title", "Hello world")) == Generated("My Title", "Hello world")
  {
    ExampleShapes();
    ParseFormatReply("My Title", "Hello world");
    TrimOfTrimmed("Hello world");
  }

  lemma ExampleShapes()
    ensures Trimmed("My Title") && NoLineTerminator("My Title")
    ensures !Contains("My Title", ContentMarker)
    ensures Trimmed("Hello world")
  {
    AbsentFirstChar("My Title", ContentMarker);
  }

  /** In the reply `TITLE: Foo\r\n` the one marker does not match: `.` will
      not take the `\r` and `(?:\n|$)` will not skip it. With no later
      marker, the title falls back. */
  lemma CarriageReturnTitleFallsBack()
    ensures Parse("TITLE: Foo\r\n") == Generated(UntitledTitle, "TITLE: Foo\r\n")
  {
    CarriageReturnTitle();
    CarriageReturnContent();
  }

  lemma CarriageReturnTitle()
    ensures ExtractTitle("TITLE: Foo\r\n") == UntitledTitle
  {
    var text := "TITLE: Foo\r\n";
    CarriageReturnTitleLine();
    TitleAtRejectsOtherTerminator(text, 0);
    CarriageReturnOneMarker();
    NoTitleMatchFallsBack(text);
  }

  lemma CarriageReturnContent()
    ensures ExtractContent("TITLE: Foo\r\n") == "TITLE: Foo\r\n"
  {
    AbsentFirstChar("TITLE: Foo\r\n", ContentMarker);
  }

  /** The title line of `"TITLE: Foo\r\n"` runs from the `F` to the `\r`. */
  lemma CarriageReturnTitleLine()
    ensures OccursAt("TITLE: Foo\r\n", TitleMarker, 0)
    ensures TitleStart("TITLE: Foo\r\n", 0) == 7
    ensures NoLineTerminator("TITLE: Foo\r\n"[6..7])
    ensures LineEnd("TITLE: Foo\r\n", 7) == 10
    ensures !EndsTitleLine("TITLE: Foo\r\n", 10)
  {
    var text := "TITLE: Foo\r\n";
    assert text[..6] == TitleMarker;
    assert text[6..] == " " + "Foo\r\n";
    LeadingSpaceOf(" ", "Foo\r\n");
    assert NoLineTerminator(text[7..10]);
    LineEndUnique(text, 7, 10);
  }

  /** `"TITLE: Foo\r\n"` holds the title marker at its start only. */
  lemma CarriageReturnOneMarker()
    ensures forall p :: 0 <= p <= |"TITLE: Foo\r\n"| ==>
      TitleAt("TITLE: Foo\r\n", p).None? || p == 0
  {
    var text := "TITLE: Foo\r\n";
    forall p | 0 < p <= |text| ensures !OccursAt(text, TitleMarker, p) {
      if p + 6 <= |text| {
        assert text[p..p + 6][0] == text[p];
      }
    }
  }

  /** A `\s*` that reaches past an empty title line captures the next line:
      with nothing after the marker, the title becomes the content marker
      itself, while the content is still recovered. */
  lemma BlankTitleLineTakesNextLine()
    ensures Parse("TITLE:\n\nCONTENT:\nOnce") == Generated("CONTENT:", "Once")
  {
    BlankTitleLineTitle();
    BlankTitleLineContent();
  }

  /** A title line of spaces followed by a non-blank line: `\s*` runs on
      into that line, which becomes the title. */
  lemma SpaceLineTakesNextLine()
    ensures ExtractTitle("TITLE: \nFoo") == "Foo"
  {
    var text := "TITLE: \nFoo";
    SpaceLineShape();
    TitleAtWellFormedLine(text, 0);
    TitleCaptureAtFirstMarker(text, 0);
    TrimOfTrimmed("Foo");
  }

  lemma SpaceLineShape()
    ensures OccursAt("TITLE: \nFoo", TitleMarker, 0)
    ensures TitleStart("TITLE: \nFoo", 0) == 8
    ensures LineEnd("TITLE: \nFoo", 8) == 11
    ensures "TITLE: \nFoo"[8..11] == "Foo"
  {
    var text := "TITLE: \nFoo";
    assert text[..6] == TitleMarker;
    assert text[6..] == " \n" + "Foo";
    LeadingSpaceOf(" \n", "Foo");
    assert text[8..11] == "Foo";
    LineEndUnique(text, 8, 11);
  }

  lemma BlankTitleLineTitle()
    ensures ExtractTitle("TITLE:\n\nCONTENT:\nOnce") == "CONTENT:"
  {
    var text := "TITLE:\n\nCONTENT:\nOnce";
    BlankTitleLineShape();
    TitleAtWellFormedLine(text, 0);
    TitleCaptureAtFirstMarker(text, 0);
    TrimOfTrimmed("CONTENT:");
  }

  lemma BlankTitleLineShape()
    ensures OccursAt("TITLE:\n\nCONTENT:\nOnce", TitleMarker, 0)
    ensures TitleStart("TITLE:\n\nCONTENT:\nOnce", 0) == 8
    ensures LineEnd("TITLE:\n\nCONTENT:\nOnce", 8) == 16
    ensures EndsTitleLine("TITLE:\n\nCONTENT:\nOnce", 16)
    ensures "TITLE:\n\nCONTENT:\nOnce"[8..16] == "CONTENT:"
  {
    BlankTitleLineStart();
    BlankTitleLineEnd();
  }

  lemma BlankTitleLineStart()
    ensures OccursAt("TITLE:\n\nCONTENT:\nOnce", TitleMarker, 0)
    ensures TitleStart("TITLE:\n\nCONTENT:\nOnce", 0) == 8
  {
    var text := "TITLE:\n\nCONTENT:\nOnce";
    assert text[..6] == TitleMarker;
    assert text[6..] == "\n\n" + "CONTENT:\nOnce";
    LeadingSpaceOf("\n\n", "CONTENT:\nOnce");
  }

  lemma BlankTitleLineEnd()
    ensures LineEnd("TITLE:\n\nCONTENT:\nOnce", 8) == 16
    ensures EndsTitleLine("TITLE:\n\nCONTENT:\nOnce", 16)
    ensures "TITLE:\n\nCONTENT:\nOnce"[8..16] == "CONTENT:"
  {
    var text := "TITLE:\n\nCONTENT:\nOnce";
    assert text[8..16] == "CONTENT:";
    assert text[16] == '\n';
    LineEndUnique(text, 8, 16);
  }

  lemma BlankTitleLineContent()
    ensures ExtractContent("TITLE:\n\nCONTENT:\nOnce") == "Once"
  {
    BlankTitleLineContentMarker();
    BlankTitleLineBody();
  }

  lemma BlankTitleLineBody()
    ensures Trim("TITLE:\n\nCONTENT:\nOnce"[16..]) == "Once"
  {
    BlankTitleLineTail();
    TrimCharacterization("\n", "Once", "");
  }

  lemma BlankTitleLineTail()
    ensures "TITLE:\n\nCONTENT:\nOnce"[16..] == "\n" + "Once" + ""
  {
  }

  lemma BlankTitleLineContentMarker()
    ensures IndexOf("TITLE:\n\nCONTENT:\nOnce", ContentMarker) == Some(8)
  {
    var text := "TITLE:\n\nCONTENT:\nOnce";
    assert OccursAt(text, ContentMarker, 8);
    forall j: nat | j < 8 ensures !OccursAt(text, ContentMarker, j) {
      assert text[j..j + 8][0] == text[j];
    }
  }

  /** In the reply `TITLE: \n`, where nothing non-blank follows the space,
      the marker still matches: `\s*` gives back the space so that `.+?` can
      take it, and trimming leaves an empty title rather than the fallback.
      Had a non-blank line followed, `\s*` would have run on into it. */
  lemma SpaceOnlyTitleIsEmpty()
    ensures Parse("TITLE: \n") == Generated("", "TITLE: \n")
  {
    SpaceOnlyTitle();
    SpaceOnlyTitleContent();
  }

  lemma SpaceOnlyTitleContent()
    ensures ExtractContent("TITLE: \n") == "TITLE: \n"
  {
    AbsentFirstChar("TITLE: \n", ContentMarker);
  }

  lemma SpaceOnlyTitle()
    ensures ExtractTitle("TITLE: \n") == ""
  {
    var text := "TITLE: \n";
    assert OccursAt(text, TitleMarker, 0);
    assert text[6..] == " \n" + "";
    LeadingSpaceOf(" \n", "");
    assert LeadingSpace(text[6..]) == 2;
    assert 0 + |TitleMarker| == 6;
    assert CaptureFrom(text, 8).None?;
    assert IsLineTerminator(text[7]);
    assert CaptureFrom(text, 7).None?;
    LineEndUnique(text, 6, 7);
    assert CaptureFrom(text, 6) == Some(7);
    assert Backtrack(text, 6, 2) == Some((6, 7));
    assert text[6..7] == " ";
    assert TitleAt(text, 0) == Some(" ");
    TitleCaptureAtFirstMarker(text, 0);
    assert " " == " " + "" + "";
    TrimCharacterization(" ", "", "");
  }
}

=== FILE: seqs.dfy ===
/** The two array combinators the store is written with: `Array.prototype.map`
    and `Array.prototype.filter`, as recursive functions over sequences. */
module Seqs {

  /** `xs.map(f)`: every element rewritten, positions kept. */
  function Map<A, B>(xs: seq<A>, f: A -> B): (r: seq<B>)
    ensures |r| == |xs|
    ensures forall i :: 0 <= i < |xs| ==> r[i] == f(xs[i])
  {
    if |xs| == 0 then [] else [f(xs[0])] + Map(xs[1..], f)
  }

  /** `xs.filter(keep)`: the elements that pass, in their original order. */
  function Filter<A(!new)>(xs: seq<A>, keep: A -> bool): (r: seq<A>)
    ensures |r| <= |xs|
    ensures forall i :: 0 <= i < |r| ==> r[i] in xs && keep(r[i])
    ensures forall i :: 0 <= i < |xs| && keep(xs[i]) ==> xs[i] in r
    ensures multiset(r) <= multiset(xs)
    ensures forall x :: multiset(r)[x] == if keep(x) then multiset(xs)[x] else 0
  {
    if |xs| == 0 then []
    else
      assert xs == [xs[0]] + xs[1..];
      assert multiset(xs) == multiset{xs[0]} + multiset(xs[1..]);
      if keep(xs[0]) then [xs[0]] + Filter(xs[1..], keep)
      else Filter(xs[1..], keep)
  }

  /** Filtering distributes over concatenation: the survivors of `a` all come
      before the survivors of `b`, so filtering never reorders. */
  lemma {:induction false} FilterConcat<A(!new)>(a: seq<A>, b: seq<A>, keep: A -> bool)
    ensures Filter(a + b, keep) == Filter(a, keep) + Filter(b, keep)
  {
    if |a| == 0 {
      assert a + b == b;
    } else {
      assert (a + b)[1..] == a[1..] + b;
      FilterConcat(a[1..], b, keep);
    }
  }

  /** A single element survives exactly when it passes. With `FilterConcat`
      this determines `Filter` on every sequence. */
  lemma FilterSingle<A(!new)>(x: A, keep: A -> bool)
    ensures Filter([x], keep) == if keep(x) then [x] else []
  {
    assert [x][1..] == [];
  }

  /** When every element passes, filtering is the identity. */
  lemma {:induction false} FilterKeepsAll<A(!new)>(xs: seq<A>, keep: A -> bool)
    requires forall i :: 0 <= i < |xs| ==> keep(xs[i])
    ensures Filter(xs, keep) == xs
  {
    if |xs| > 0 {
      FilterKeepsAll(xs[1..], keep);
      assert [xs[0]] + xs[1..] == xs;
    }
  }

  /** When exactly one position fails the test, filtering removes just that
      position. */
  lemma {:induction false} FilterDropsOne<A(!new)>(xs: seq<A>, k: nat, keep: A -> bool)
    requires k < |xs|
    requires !keep(xs[k])
    requires forall i :: 0 <= i < |xs| && i != k ==> keep(xs[i])
    ensures Filter(xs, keep) == xs[..k] + xs[k + 1..]
  {
    var before, after := xs[..k], xs[k + 1..];
    assert xs == before + ([xs[k]] + after);
    FilterConcat(before, [xs[k]] + after, keep);
    FilterConcat([xs[k]], after, keep);
    assert forall i :: 0 <= i < |before| ==> keep(before[i]) by {
      forall i | 0 <= i < |before| ensures keep(before[i]) {
        assert before[i] == xs[i];
      }
    }
    assert forall i :: 0 <= i < |after| ==> keep(after[i]) by {
      forall i | 0 <= i < |after| ensures keep(after[i]) {
        assert after[i] == xs[k + 1 + i];
      }
    }
    FilterKeepsAll(before, keep);
    FilterKeepsAll(after, keep);
    assert Filter([xs[k]], keep) == [];
  }
}

=== FILE: store.dfy ===
/** The story store: the persisted record of stories, their chapters and the
    two selection cursors, with the seven transitions the editor drives.

    Every transition is a pure function from the old state to the new one.
    `addChapter`, `updateChapter`, `deleteStory` and `deleteChapter` are
    built from `map` and `filter` over the story sequence, as in the source;
    the other three are an append and two record updates. The identifiers the source draws from `crypto.randomUUID()`
    are supplied by the caller and must not already be in use. */
module StoryStore {
  import opened Optional
  import opened Seqs

  /** Identifiers are opaque strings; nothing but equality is used. */
  type Id = string

  datatype Chapter = Chapter(id: Id, title: string, content: string)

  datatype Story = Story(id: Id, title: string, chapters: seq<Chapter>)

  /** The persisted record. A cursor is `None` where the source holds `null`. */
  datatype State = State(
    stories: seq<Story>,
    currentStoryId: Option<Id>,
    currentChapterId: Option<Id>
  )

  /** The state before anything has been persisted. */
  const Empty: State := State([], None, None)

  // ---------------------------------------------------------------------
  // Identifiers in use

  function ChapterIds(chapters: seq<Chapter>): seq<Id> {
    Map(chapters, (c: Chapter) => c.id)
  }

  /** Every identifier of `stories`: each story's own id followed by the ids of
      its chapters, story by story. */
  function Ids(stories: seq<Story>): seq<Id> {
    if |stories| == 0 then []
    else StoryIds(stories[0]) + Ids(stories[1..])
  }

  /** The ids one story contributes: its own, then its chapters'. */
  function StoryIds(st: Story): seq<Id> {
    [st.id] + ChapterIds(st.chapters)
  }

  lemma {:induction false} IdsConcat(a: seq<Story>, b: seq<Story>)
    ensures Ids(a + b) == Ids(a) + Ids(b)
  {
    if |a| == 0 {
      assert a + b == b;
    } else {
      assert (a + b)[1..] == a[1..] + b;
      IdsConcat(a[1..], b);
    }
  }

  lemma IdsCons(st: Story, rest: seq<Story>)
    ensures Ids([st] + rest) == StoryIds(st) + Ids(rest)
  {
    assert ([st] + rest)[1..] == rest;
  }

  /** `id` names no story and no chapter of `s`: what the model asks of an
      identifier standing in for a freshly generated UUID. */
  predicate Fresh(s: State, id: Id) {
    id !in Ids(s.stories)
  }

  /** Some story of `stories` has identifier `storyId`. */
  predicate HasStory(stories: seq<Story>, storyId: Id) {
    exists i :: 0 <= i < |stories| && stories[i].id == storyId
  }

  // ---------------------------------------------------------------------
  // Transitions

  /** `addStory(title)`: a new, chapterless story at the end of the list. */
  function AddStory(s: State, title: string, freshId: Id): (r: State)
    requires Fresh(s, freshId)
    ensures |r.stories| == |s.stories| + 1
    ensures r.stories[..|s.stories|] == s.stories
    ensures r.stories[|s.stories|] == Story(freshId, title, [])
    ensures r.currentStoryId == s.currentStoryId
    ensures r.currentChapterId == s.currentChapterId
    ensures Ids(r.stories) == Ids(s.stories) + [freshId]
  {
    var st := Story(freshId, title, []);
    IdsConcat(s.stories, [st]);
    IdsCons(st, []);
    assert ChapterIds([]) == [];
    s.(stories := s.stories + [st])
  }

  /** The story `st` with one more chapter at the end. */
  function WithChapter(st: Story, chapter: Chapter): Story {
    st.(chapters := st.chapters + [chapter])
  }

  /** `addChapter(storyId, title)`: a new chapter with empty content appended to
      every story whose id is `storyId`; a missing story is a silent no-op. */
  function AddChapter(s: State, storyId: Id, title: string, freshId: Id): (r: State)
    requires Fresh(s, freshId)
    ensures |r.stories| == |s.stories|
    ensures forall i :: 0 <= i < |s.stories| ==>
      r.stories[i].id == s.stories[i].id && r.stories[i].title == s.stories[i].title
    ensures forall i :: 0 <= i < |s.stories| && s.stories[i].id == storyId ==>
      r.stories[i].chapters == s.stories[i].chapters + [Chapter(freshId, title, "")]
    ensures forall i :: 0 <= i < |s.stories| && s.stories[i].id != storyId ==>
      r.stories[i] == s.stories[i]
    ensures r.currentStoryId == s.currentStoryId
    ensures r.currentChapterId == s.currentChapterId
    ensures !HasStory(s.stories, storyId) ==> r == s
  {
    var chapter := Chapter(freshId, title, "");
    var stories := Map(s.stories, (st: Story) => if st.id == storyId then WithChapter(st, chapter) else st);
    assert !HasStory(s.stories, storyId) ==> stories == s.stories;
    s.(stories := stories)
  }

  /** Whether `updateChapter`'s optional title replaces the old one: the source
      spreads `title && { title }`, which adds nothing for an omitted or empty
      title. */
  predicate ReplacesTitle(title: Option<string>) {
    title.Some? && title.value != ""
  }

  /** One chapter after `updateChapter` has reached it. */
  function Edited(c: Chapter, content: string, title: Option<string>): Chapter {
    c.(content := content, title := if ReplacesTitle(title) then title.value else c.title)
  }

  /** One story after `updateChapter` has reached it. */
  function EditedStory(st: Story, chapterId: Id, content: string, title: Option<string>): Story {
    st.(chapters := Map(st.chapters, (c: Chapter) => if c.id == chapterId then Edited(c, content, title) else c))
  }

  /** `updateChapter(storyId, chapterId, content, title?)`: in every story with
      id `storyId`, every chapter with id `chapterId` gets the new content, and
      the new title when one is given and non-empty. Nothing else changes. */
  function UpdateChapter(s: State, storyId: Id, chapterId: Id, content: string, title: Option<string>): (r: State)
    ensures |r.stories| == |s.stories|
    ensures forall i :: 0 <= i < |s.stories| ==>
      && r.stories[i].id == s.stories[i].id
      && r.stories[i].title == s.stories[i].title
      && |r.stories[i].chapters| == |s.stories[i].chapters|
    ensures forall i, j :: 0 <= i < |s.stories| && 0 <= j < |s.stories[i].chapters| ==>
      var before := s.stories[i].chapters[j];
      var after := r.stories[i].chapters[j];
      if s.stories[i].id == storyId && before.id == chapterId then
        && after.id == before.id
        && after.content == content
        && after.title == (if ReplacesTitle(title) then title.value else before.title)
      else after == before
    ensures r.currentStoryId == s.currentStoryId
    ensures r.currentChapterId == s.currentChapterId
  {
    s.(stories := Map(s.stories, (st: Story) => if st.id == storyId then EditedStory(st, chapterId, content, title) else st))
  }

  /** `setCurrentStory(storyId)`: selects a story (or none) and always drops the
      chapter selection. */
  function SetCurrentStory(s: State, storyId: Option<Id>): (r: State)
    ensures r.stories == s.stories
    ensures r.currentStoryId == storyId
    ensures r.currentChapterId == None
  {
    s.(currentStoryId := storyId, currentChapterId := None)
  }

  /** `setCurrentChapter(chapterId)`: selects a chapter (or none); the story
      selection is left alone. */
  function SetCurrentChapter(s: State, chapterId: Option<Id>): (r: State)
    ensures r.stories == s.stories
    ensures r.currentStoryId == s.currentStoryId
    ensures r.currentChapterId == chapterId
  {
    s.(currentChapterId := chapterId)
  }

  /** The stories `filter` keeps when `storyId` is deleted. */
  function RemainingStories(stories: seq<Story>, storyId: Id): seq<Story> {
    Filter(stories, (st: Story) => st.id != storyId)
  }

  /** `deleteStory(storyId)`: removes every story with that id; deleting the
      selected story clears both cursors, otherwise they are kept. */
  function DeleteStory(s: State, storyId: Id): (r: State)
    ensures forall i :: 0 <= i < |r.stories| ==> r.stories[i].id != storyId
    ensures forall i :: 0 <= i < |s.stories| && s.stories[i].id != storyId ==> s.stories[i] in r.stories
    ensures r.stories == RemainingStories(s.stories, storyId)
    ensures forall st ::
      multiset(r.stories)[st] == if st.id != storyId then multiset(s.stories)[st] else 0
    ensures s.currentStoryId == Some(storyId) ==> r.currentStoryId == None && r.currentChapterId == None
    ensures s.currentStoryId != Some(storyId) ==>
      r.currentStoryId == s.currentStoryId && r.currentChapterId == s.currentChapterId
  {
    var selected := s.currentStoryId == Some(storyId);
    State(
      RemainingStories(s.stories, storyId),
      if selected then None else s.currentStoryId,
      if selected then None else s.currentChapterId
    )
  }

  /** The chapters `filter` keeps when `chapterId` is deleted. */
  function RemainingChapters(chapters: seq<Chapter>, chapterId: Id): seq<Chapter> {
    Filter(chapters, (c: Chapter) => c.id != chapterId)
  }

  /** `deleteChapter(storyId, chapterId)`: removes the chapters with id
      `chapterId` from the stories with id `storyId` only. The chapter cursor is
      cleared exactly when it equals `chapterId`, whatever `storyId` is; the
      story cursor never changes. */
  function DeleteChapter(s: State, storyId: Id, chapterId: Id): (r: State)
    ensures |r.stories| == |s.stories|
    ensures forall i :: 0 <= i < |s.stories| && s.stories[i].id != storyId ==>
      r.stories[i] == s.stories[i]
    ensures forall i :: 0 <= i < |s.stories| && s.stories[i].id == storyId ==>
      && r.stories[i].id == storyId
      && r.stories[i].title == s.stories[i].title
      && r.stories[i].chapters == RemainingChapters(s.stories[i].chapters, chapterId)
    ensures r.currentStoryId == s.currentStoryId
    ensures r.currentChapterId == (if s.currentChapterId == Some(chapterId) then None else s.currentChapterId)
  {
    State(
      Map(s.stories, (st: Story) =>
        if st.id == storyId then st.(chapters := RemainingChapters(st.chapters, chapterId)) else st),
      s.currentStoryId,
      if s.currentChapterId == Some(chapterId) then None else s.currentChapterId
    )
  }

  // ---------------------------------------------------------------------
  // Lookups, as the editor performs them with `Array.prototype.find`

  /** The first story with identifier `storyId`, if any. */
  function FindStory(stories: seq<Story>, storyId: Id): (r: Option<Story>)
    ensures r.Some? <==> HasStory(stories, storyId)
    ensures r.Some? ==> r.value in stories && r.value.id == storyId
    ensures r.Some? ==> exists i ::
      && 0 <= i < |stories| && stories[i] == r.value
      && forall j :: 0 <= j < i ==> stories[j].id != storyId
  {
    if |stories| == 0 then None
    else if stories[0].id == storyId then Some(stories[0])
    else
      var rest := FindStory(stories[1..], storyId);
      assert HasStory(stories, storyId) ==> HasStory(stories[1..], storyId) by {
        if HasStory(stories, storyId) {
          var i :| 0 <= i < |stories| && stories[i].id == storyId;
          assert stories[1..][i - 1] == stories[i];
        }
      }
      assert HasStory(stories[1..], storyId) ==> HasStory(stories, storyId) by {
        if HasStory(stories[1..], storyId) {
          var i :| 0 <= i < |stories[1..]| && stories[1..][i].id == storyId;
          assert stories[i + 1] == stories[1..][i];
        }
      }
      rest
  }

  /** The first chapter with identifier `chapterId`, if any. */
  function FindChapter(chapters: seq<Chapter>, chapterId: Id): (r: Option<Chapter>)
    ensures r.Some? <==> exists j :: 0 <= j < |chapters| && chapters[j].id == chapterId
    ensures r.Some? ==> r.value in chapters && r.value.id == chapterId
    ensures r.Some? ==> exists i ::
      && 0 <= i < |chapters| && chapters[i] == r.value
      && forall j :: 0 <= j < i ==> chapters[j].id != chapterId
  {
    if |chapters| == 0 then None
    else if chapters[0].id == chapterId then Some(chapters[0])
    else
      var rest := FindChapter(chapters[1..], chapterId);
      assert forall j :: 1 <= j < |chapters| ==> chapters[j] == chapters[1..][j - 1];
      rest
  }
}

=== FILE: store_invariants.dfy ===
/** What the store's transitions preserve: globally unique identifiers and
    cursors that point at existing entities; and how they relate to each other
    (deleting what was just added restores the state). */
module StoreInvariants {
  import opened Optional
  import opened Seqs
  import opened StoryStore

  // ---------------------------------------------------------------------
  // Unique identifiers

  /** No identifier occurs twice in `ids`. */
  predicate NoDuplicates(ids: multiset<Id>) {
    forall x | x in ids :: ids[x] == 1
  }

  /** Every story id and every chapter id of `s` is distinct from every other:
      the guarantee the source gets from drawing each one from
      `crypto.randomUUID()`. */
  predicate UniqueIds(s: State) {
    NoDuplicates(multiset(Ids(s.stories)))
  }

  /** Every story id and every chapter id of `stories` is listed by `Ids`. */
  lemma {:induction false} IdsCover(stories: seq<Story>)
    ensures forall i :: 0 <= i < |stories| ==> stories[i].id in Ids(stories)
    ensures forall i, j :: 0 <= i < |stories| && 0 <= j < |stories[i].chapters| ==>
      stories[i].chapters[j].id in Ids(stories)
  {
    if |stories| > 0 {
      IdsCover(stories[1..]);
      forall i, j | 0 <= i < |stories| && 0 <= j < |stories[i].chapters|
        ensures stories[i].chapters[j].id in Ids(stories)
      {
        if i == 0 {
          assert ChapterIds(stories[0].chapters)[j] == stories[0].chapters[j].id;
        } else {
          assert stories[i] == stories[1..][i - 1];
        }
      }
      forall i | 0 <= i < |stories| ensures stories[i].id in Ids(stories) {
        if i > 0 {
          assert stories[i] == stories[1..][i - 1];
        }
      }
    }
  }

  /** A fresh identifier names no story and no chapter. */
  lemma FreshIsUnused(s: State, id: Id)
    requires Fresh(s, id)
    ensures !HasStory(s.stories, id)
    ensures forall i, j :: 0 <= i < |s.stories| && 0 <= j < |s.stories[i].chapters| ==>
      s.stories[i].chapters[j].id != id
  {
    IdsCover(s.stories);
  }

  /** With unique identifiers, no two stories share an id. */
  lemma UniqueStoryIds(s: State, i: nat, j: nat)
    requires UniqueIds(s)
    requires i < j < |s.stories|
    ensures s.stories[i].id != s.stories[j].id
  {
    var a, b := s.stories[..j], s.stories[j..];
    var x := s.stories[j].id;
    assert s.stories == a + b;
    IdsConcat(a, b);
    assert x in Ids(b) by {
      assert b[0] == s.stories[j];
      assert Ids(b) == StoryIds(b[0]) + Ids(b[1..]);
    }
    var y := s.stories[i].id;
    assert y in Ids(a) by {
      IdsCover(a);
      assert a[i] == s.stories[i];
    }
    DistinctAcross(Ids(a), Ids(b), y, x);
  }

  /** In a duplicate-free concatenation, an element of the first part differs
      from every element of the second. */
  lemma DistinctAcross(a: seq<Id>, b: seq<Id>, x: Id, y: Id)
    requires x in a && y in b
    requires NoDuplicates(multiset(a + b))
    ensures x != y
  {
    assert multiset(a + b) == multiset(a) + multiset(b);
    assert multiset(a + b)[y] >= multiset(a)[y] + 1;
  }

  /** Two sequences of stories that agree story by story on their ids list
      the same ids. */
  lemma {:induction false} IdsPointwise(a: seq<Story>, b: seq<Story>)
    requires |a| == |b|
    requires forall i :: 0 <= i < |a| ==> StoryIds(a[i]) == StoryIds(b[i])
    ensures Ids(a) == Ids(b)
  {
    if |a| > 0 {
      assert forall i :: 0 <= i < |a| - 1 ==> a[1..][i] == a[i + 1] && b[1..][i] == b[i + 1];
      IdsPointwise(a[1..], b[1..]);
      assert StoryIds(a[0]) == StoryIds(b[0]);
    }
  }

  /** Two sequences of stories where each story of `b` contributes no more ids
      than its counterpart in `a`. */
  lemma {:induction false} IdsPointwiseShrink(a: seq<Story>, b: seq<Story>)
    requires |a| == |b|
    requires forall i :: 0 <= i < |a| ==> multiset(StoryIds(b[i])) <= multiset(StoryIds(a[i]))
    ensures multiset(Ids(b)) <= multiset(Ids(a))
  {
    if |a| > 0 {
      var ta, tb := a[1..], b[1..];
      forall i | 0 <= i < |ta| ensures multiset(StoryIds(tb[i])) <= multiset(StoryIds(ta[i])) {
        assert ta[i] == a[i + 1] && tb[i] == b[i + 1];
      }
      IdsPointwiseShrink(ta, tb);
      var ha, hb := StoryIds(a[0]), StoryIds(b[0]);
      var ra, rb := Ids(ta), Ids(tb);
      assert Ids(a) == ha + ra;
      assert Ids(b) == hb + rb;
      SumShrinks(ha, ra, hb, rb);
    }
  }

  lemma SumShrinks(ha: seq<Id>, ra: seq<Id>, hb: seq<Id>, rb: seq<Id>)
    requires multiset(hb) <= multiset(ha) && multiset(rb) <= multiset(ra)
    ensures multiset(hb + rb) <= multiset(ha + ra)
  {
    assert multiset(ha + ra) == multiset(ha) + multiset(ra);
    assert multiset(hb + rb) == multiset(hb) + multiset(rb);
  }

  /** The ids of the stories `filter` keeps are among the ids of all of them. */
  lemma {:induction false} IdsOfRemainingStories(stories: seq<Story>, storyId: Id)
    ensures multiset(Ids(RemainingStories(stories, storyId))) <= multiset(Ids(stories))
  {
    if |stories| > 0 {
      var head, tail := stories[0], stories[1..];
      var rest := RemainingStories(tail, storyId);
      IdsOfRemainingStories(tail, storyId);
      assert Ids(stories) == StoryIds(head) + Ids(tail);
      if head.id != storyId {
        assert RemainingStories(stories, storyId) == [head] + rest;
        IdsCons(head, rest);
      } else {
        assert RemainingStories(stories, storyId) == rest;
      }
    }
  }

  /** The ids of the chapters `filter` keeps are among the ids of all of them. */
  lemma {:induction false} IdsOfRemainingChapters(chapters: seq<Chapter>, chapterId: Id)
    ensures multiset(ChapterIds(RemainingChapters(chapters, chapterId))) <= multiset(ChapterIds(chapters))
  {
    if |chapters| > 0 {
      var keep := (c: Chapter) => c.id != chapterId;
      IdsOfRemainingChapters(chapters[1..], chapterId);
      assert ChapterIds(chapters) == [chapters[0].id] + ChapterIds(chapters[1..]);
      if keep(chapters[0]) {
        var rest := RemainingChapters(chapters[1..], chapterId);
        assert ChapterIds([chapters[0]] + rest) == [chapters[0].id] + ChapterIds(rest);
      }
    }
  }

  lemma NoDuplicatesShrink(small: multiset<Id>, big: multiset<Id>)
    requires small <= big
    requires NoDuplicates(big)
    ensures NoDuplicates(small)
  {
    forall x | x in small ensures small[x] == 1 {
      assert x in big;
    }
  }

  /** `addStory` keeps identifiers unique when given a fresh id. */
  lemma AddStoryKeepsIdsUnique(s: State, title: string, freshId: Id)
    requires UniqueIds(s)
    requires Fresh(s, freshId)
    ensures UniqueIds(AddStory(s, title, freshId))
  {
    NoDuplicatesGrow(multiset(Ids(s.stories)), freshId);
  }

  /** With unique identifiers, `addChapter` changes the one story it names and
      leaves every other position alone. */
  lemma AddChapterTouchesOneStory(s: State, k: nat, title: string, freshId: Id)
    requires UniqueIds(s)
    requires Fresh(s, freshId)
    requires k < |s.stories|
    ensures AddChapter(s, s.stories[k].id, title, freshId).stories
         == s.stories[k := WithChapter(s.stories[k], Chapter(freshId, title, ""))]
  {
    var r := AddChapter(s, s.stories[k].id, title, freshId);
    var expected := s.stories[k := WithChapter(s.stories[k], Chapter(freshId, title, ""))];
    forall i | 0 <= i < |s.stories| ensures r.stories[i] == expected[i] {
      if i < k {
        UniqueStoryIds(s, i, k);
      } else if i > k {
        UniqueStoryIds(s, k, i);
      }
    }
  }

  /** The ids of a story sequence, split around position `k`. */
  lemma IdsSplit(stories: seq<Story>, k: nat)
    requires k < |stories|
    ensures Ids(stories) == Ids(stories[..k]) + (StoryIds(stories[k]) + Ids(stories[k + 1..]))
  {
    var before, from := stories[..k], stories[k..];
    assert stories == before + from;
    IdsConcat(before, from);
    assert from[0] == stories[k];
    assert from[1..] == stories[k + 1..];
  }

  /** A story with one more chapter contributes exactly that chapter's id more. */
  lemma WithChapterIds(st: Story, c: Chapter)
    ensures StoryIds(WithChapter(st, c)) == StoryIds(st) + [c.id]
  {
    assert ChapterIds(st.chapters + [c]) == ChapterIds(st.chapters) + [c.id];
  }

  /** Replacing one story by one that contributes a single extra id adds just
      that id to the whole collection. */
  lemma IdsReplaceGrow(stories: seq<Story>, k: nat, st: Story, extra: Id)
    requires k < |stories|
    requires StoryIds(st) == StoryIds(stories[k]) + [extra]
    ensures multiset(Ids(stories[k := st])) == multiset(Ids(stories)) + multiset{extra}
  {
    var r := stories[k := st];
    IdsSplit(stories, k);
    IdsSplit(r, k);
    assert r[..k] == stories[..k];
    assert r[k + 1..] == stories[k + 1..];
    var x, y, z := Ids(stories[..k]), StoryIds(stories[k]), Ids(stories[k + 1..]);
    assert Ids(r) == x + ((y + [extra]) + z);
    assert multiset(Ids(r)) == multiset(x) + (multiset(y) + multiset{extra} + multiset(z));
  }

  /** Adding one id that was not there keeps a duplicate-free collection so. */
  lemma NoDuplicatesGrow(ids: multiset<Id>, extra: Id)
    requires NoDuplicates(ids)
    requires extra !in ids
    ensures NoDuplicates(ids + multiset{extra})
  {
    forall x | x in ids + multiset{extra} ensures (ids + multiset{extra})[x] == 1 {
      if x != extra {
        assert x in ids;
      }
    }
  }

  /** `addChapter` keeps identifiers unique when given a fresh id. */
  lemma AddChapterKeepsIdsUnique(s: State, storyId: Id, title: string, freshId: Id)
    requires UniqueIds(s)
    requires Fresh(s, freshId)
    ensures UniqueIds(AddChapter(s, storyId, title, freshId))
  {
    if HasStory(s.stories, storyId) {
      var k :| 0 <= k < |s.stories| && s.stories[k].id == storyId;
      var c := Chapter(freshId, title, "");
      AddChapterTouchesOneStory(s, k, title, freshId);
      WithChapterIds(s.stories[k], c);
      IdsReplaceGrow(s.stories, k, WithChapter(s.stories[k], c), freshId);
      NoDuplicatesGrow(multiset(Ids(s.stories)), freshId);
    }
  }

  /** `updateChapter` leaves the list of identifiers exactly as it was. */
  lemma UpdateChapterKeepsIds(s: State, storyId: Id, chapterId: Id, content: string, title: Option<string>)
    ensures Ids(UpdateChapter(s, storyId, chapterId, content, title).stories) == Ids(s.stories)
  {
    var r := UpdateChapter(s, storyId, chapterId, content, title);
    forall i | 0 <= i < |s.stories| ensures StoryIds(r.stories[i]) == StoryIds(s.stories[i]) {
      assert ChapterIds(r.stories[i].chapters) == ChapterIds(s.stories[i].chapters);
    }
    IdsPointwise(s.stories, r.stories);
  }

  /** `deleteStory` only ever drops identifiers. */
  lemma DeleteStoryShrinksIds(s: State, storyId: Id)
    ensures multiset(Ids(DeleteStory(s, storyId).stories)) <= multiset(Ids(s.stories))
  {
    IdsOfRemainingStories(s.stories, storyId);
  }

  /** `deleteChapter` only ever drops identifiers. */
  lemma DeleteChapterShrinksIds(s: State, storyId: Id, chapterId: Id)
    ensures multiset(Ids(DeleteChapter(s, storyId, chapterId).stories)) <= multiset(Ids(s.stories))
  {
    var r := DeleteChapter(s, storyId, chapterId);
    forall i | 0 <= i < |s.stories|
      ensures multiset(StoryIds(r.stories[i])) <= multiset(StoryIds(s.stories[i]))
    {
      if s.stories[i].id == storyId {
        IdsOfRemainingChapters(s.stories[i].chapters, chapterId);
      }
    }
    IdsPointwiseShrink(s.stories, r.stories);
  }

  // ---------------------------------------------------------------------
  // The store as a state machine

  /** One call into the store, with the identifier an `add` would draw. */
  datatype Action =
    | AddStoryCall(title: string, freshId: Id)
    | AddChapterCall(storyId: Id, title: string, freshId: Id)
    | UpdateChapterCall(storyId: Id, chapterId: Id, content: string, newTitle: Option<string>)
    | SetCurrentStoryCall(target: Option<Id>)
    | SetCurrentChapterCall(target: Option<Id>)
    | DeleteStoryCall(storyId: Id)
    | DeleteChapterCall(storyId: Id, chapterId: Id)

  /** The identifier handed to an `add` has not been used before. */
  predicate FreshFor(s: State, a: Action) {
    match a
    case AddStoryCall(_, id) => Fresh(s, id)
    case AddChapterCall(_, _, id) => Fresh(s, id)
    case _ => true
  }

  function Step(s: State, a: Action): State
    requires FreshFor(s, a)
  {
    match a
    case AddStoryCall(t, id) => AddStory(s, t, id)
    case AddChapterCall(sid, t, id) => AddChapter(s, sid, t, id)
    case UpdateChapterCall(sid, cid, body, t) => UpdateChapter(s, sid, cid, body, t)
    case SetCurrentStoryCall(x) => SetCurrentStory(s, x)
    case SetCurrentChapterCall(x) => SetCurrentChapter(s, x)
    case DeleteStoryCall(sid) => DeleteStory(s, sid)
    case DeleteChapterCall(sid, cid) => DeleteChapter(s, sid, cid)
  }

  /** Every `add` in `actions` draws an identifier unused at that point. */
  predicate AllFresh(s: State, actions: seq<Action>)
    decreases |actions|
  {
    |actions| == 0 || (FreshFor(s, actions[0]) && AllFresh(Step(s, actions[0]), actions[1..]))
  }

  /** The state after performing `actions` in order. */
  function Run(s: State, actions: seq<Action>): State
    requires AllFresh(s, actions)
    decreases |actions|
  {
    if |actions| == 0 then s else Run(Step(s, actions[0]), actions[1..])
  }

  /** Any single transition keeps identifiers unique. */
  lemma StepKeepsIdsUnique(s: State, a: Action)
    requires UniqueIds(s)
    requires FreshFor(s, a)
    ensures UniqueIds(Step(s, a))
  {
    match a
    case AddStoryCall(t, id) => AddStoryKeepsIdsUnique(s, t, id);
    case AddChapterCall(sid, t, id) => AddChapterKeepsIdsUnique(s, sid, t, id);
    case UpdateChapterCall(sid, cid, body, t) => UpdateChapterKeepsIds(s, sid, cid, body, t);
    case SetCurrentStoryCall(x) =>
    case SetCurrentChapterCall(x) =>
    case DeleteStoryCall(sid) =>
      DeleteStoryShrinksIds(s, sid);
      NoDuplicatesShrink(multiset(Ids(Step(s, a).stories)), multiset(Ids(s.stories)));
    case DeleteChapterCall(sid, cid) =>
      DeleteChapterShrinksIds(s, sid, cid);
      NoDuplicatesShrink(multiset(Ids(Step(s, a).stories)), multiset(Ids(s.stories)));
  }

  /** Identifiers stay unique over any run whose `add`s draw fresh ids. */
  lemma {:induction false} RunKeepsIdsUnique(s: State, actions: seq<Action>)
    requires UniqueIds(s)
    requires AllFresh(s, actions)
    ensures UniqueIds(Run(s, actions))
    decreases |actions|
  {
    if |actions| > 0 {
      StepKeepsIdsUnique(s, actions[0]);
      RunKeepsIdsUnique(Step(s, actions[0]), actions[1..]);
    }
  }

  // ---------------------------------------------------------------------
  // Cursors

  /** Some story with id `storyId` has a chapter with id `chapterId`. */
  predicate HasChapter(stories: seq<Story>, storyId: Id, chapterId: Id) {
    exists i, j :: 0 <= i < |stories| && 0 <= j < |stories[i].chapters| &&
      stories[i].id == storyId && stories[i].chapters[j].id == chapterId
  }

  /** A selected story exists, and a selected chapter belongs to the selected
      story. */
  predicate CursorsValid(s: State) {
    && (s.currentStoryId.Some? ==> HasStory(s.stories, s.currentStoryId.value))
    && (s.currentChapterId.Some? ==>
          s.currentStoryId.Some? &&
          HasChapter(s.stories, s.currentStoryId.value, s.currentChapterId.value))
  }

  /** What the editor must check before moving a cursor: the store itself
      accepts any id. */
  predicate SelectsExisting(s: State, a: Action) {
    match a
    case SetCurrentStoryCall(x) => x.None? || HasStory(s.stories, x.value)
    case SetCurrentChapterCall(x) =>
      x.None? || (s.currentStoryId.Some? && HasChapter(s.stories, s.currentStoryId.value, x.value))
    case _ => true
  }

  /** A story that survives at the same position with the same id and at least
      the same chapters keeps every cursor target it had. */
  lemma CursorsSurvivePrefixGrowth(s: State, r: State)
    requires CursorsValid(s)
    requires r.currentStoryId == s.currentStoryId && r.currentChapterId == s.currentChapterId
    requires |r.stories| >= |s.stories|
    requires forall i :: 0 <= i < |s.stories| ==>
      && r.stories[i].id == s.stories[i].id
      && |r.stories[i].chapters| >= |s.stories[i].chapters|
      && (forall j :: 0 <= j < |s.stories[i].chapters| ==>
            r.stories[i].chapters[j].id == s.stories[i].chapters[j].id)
    ensures CursorsValid(r)
  {
    if s.currentStoryId.Some? {
      var i :| 0 <= i < |s.stories| && s.stories[i].id == s.currentStoryId.value;
      assert r.stories[i].id == s.currentStoryId.value;
    }
    if s.currentChapterId.Some? {
      var i, j :| 0 <= i < |s.stories| && 0 <= j < |s.stories[i].chapters| &&
        s.stories[i].id == s.currentStoryId.value && s.stories[i].chapters[j].id == s.currentChapterId.value;
      assert r.stories[i].chapters[j].id == s.currentChapterId.value;
    }
  }

  /** Any transition the editor is allowed to make keeps the cursors pointing
      at existing entities. */
  lemma StepKeepsCursorsValid(s: State, a: Action)
    requires CursorsValid(s)
    requires FreshFor(s, a)
    requires SelectsExisting(s, a)
    ensures CursorsValid(Step(s, a))
  {
    var r := Step(s, a);
    match a
    case AddStoryCall(t, id) =>
      CursorsSurvivePrefixGrowth(s, r);
    case AddChapterCall(sid, t, id) =>
      CursorsSurvivePrefixGrowth(s, r);
    case UpdateChapterCall(sid, cid, body, t) =>
      CursorsSurvivePrefixGrowth(s, r);
    case SetCurrentStoryCall(x) =>
    case SetCurrentChapterCall(x) =>
    case DeleteStoryCall(sid) =>
      DeleteStoryKeepsCursorsValid(s, sid);
    case DeleteChapterCall(sid, cid) =>
      DeleteChapterKeepsCursorsValid(s, sid, cid);
  }

  /** `deleteStory` either clears both cursors or keeps a story that is not
      the deleted one, chapters and all. */
  lemma DeleteStoryKeepsCursorsValid(s: State, storyId: Id)
    requires CursorsValid(s)
    ensures CursorsValid(DeleteStory(s, storyId))
  {
    var r := DeleteStory(s, storyId);
    if s.currentStoryId.Some? && s.currentStoryId != Some(storyId) {
      var sid := s.currentStoryId.value;
      var i :| 0 <= i < |s.stories| && s.stories[i].id == sid;
      var k := SurvivorIndex(s, storyId, i);
      assert HasStory(r.stories, sid);
      if s.currentChapterId.Some? {
        var i', j :| 0 <= i' < |s.stories| && 0 <= j < |s.stories[i'].chapters| &&
          s.stories[i'].id == sid && s.stories[i'].chapters[j].id == s.currentChapterId.value;
        var k' := SurvivorIndex(s, storyId, i');
        assert r.stories[k'].chapters[j] == s.stories[i'].chapters[j];
      }
    }
  }

  /** Where a story that `deleteStory` keeps ends up. */
  lemma SurvivorIndex(s: State, storyId: Id, i: nat) returns (k: nat)
    requires i < |s.stories| && s.stories[i].id != storyId
    ensures k < |DeleteStory(s, storyId).stories|
    ensures DeleteStory(s, storyId).stories[k] == s.stories[i]
  {
    var r := DeleteStory(s, storyId);
    assert s.stories[i] in r.stories;
    k :| 0 <= k < |r.stories| && r.stories[k] == s.stories[i];
  }

  /** `deleteChapter` keeps every story, and either clears the chapter cursor
      or keeps the selected chapter. */
  lemma DeleteChapterKeepsCursorsValid(s: State, storyId: Id, chapterId: Id)
    requires CursorsValid(s)
    ensures CursorsValid(DeleteChapter(s, storyId, chapterId))
  {
    var r := DeleteChapter(s, storyId, chapterId);
    if s.currentStoryId.Some? {
      var i :| 0 <= i < |s.stories| && s.stories[i].id == s.currentStoryId.value;
      assert r.stories[i].id == s.stories[i].id;
    }
    if s.currentChapterId.Some? && s.currentChapterId != Some(chapterId) {
      var i, j :| 0 <= i < |s.stories| && 0 <= j < |s.stories[i].chapters| &&
        s.stories[i].id == s.currentStoryId.value && s.stories[i].chapters[j].id == s.currentChapterId.value;
      if s.stories[i].id == storyId {
        var c := s.stories[i].chapters[j];
        assert c in r.stories[i].chapters;
        var j' :| 0 <= j' < |r.stories[i].chapters| && r.stories[i].chapters[j'] == c;
      } else {
        assert r.stories[i].chapters[j].id == s.currentChapterId.value;
      }
    }
  }

  /** The empty store satisfies both invariants. */
  lemma EmptyIsValid()
    ensures UniqueIds(Empty) && CursorsValid(Empty)
  {
  }

  // ---------------------------------------------------------------------
  // Add, then delete

  /** Deleting the story just added gives back the state it was added to. */
  lemma DeleteStoryUndoesAddStory(s: State, title: string, freshId: Id)
    requires Fresh(s, freshId)
    requires s.currentStoryId != Some(freshId)
    ensures DeleteStory(AddStory(s, title, freshId), freshId) == s
  {
    var st := Story(freshId, title, []);
    var keep := (x: Story) => x.id != freshId;
    FreshIsUnused(s, freshId);
    FilterConcat(s.stories, [st], keep);
    FilterKeepsAll(s.stories, keep);
    assert Filter([st], keep) == [];
  }

  /** Deleting the chapter just added gives back the state it was added to. */
  lemma DeleteChapterUndoesAddChapter(s: State, storyId: Id, title: string, freshId: Id)
    requires Fresh(s, freshId)
    requires s.currentChapterId != Some(freshId)
    ensures DeleteChapter(AddChapter(s, storyId, title, freshId), storyId, freshId) == s
  {
    var c := Chapter(freshId, title, "");
    var keep := (x: Chapter) => x.id != freshId;
    var r := DeleteChapter(AddChapter(s, storyId, title, freshId), storyId, freshId);
    FreshIsUnused(s, freshId);
    forall i | 0 <= i < |s.stories| ensures r.stories[i] == s.stories[i] {
      if s.stories[i].id == storyId {
        var chapters := s.stories[i].chapters;
        FilterConcat(chapters, [c], keep);
        FilterKeepsAll(chapters, keep);
        assert Filter([c], keep) == [];
      }
    }
  }

  /** With unique identifiers, deleting a story removes exactly its position
      and keeps the others in order. */
  lemma DeleteStoryRemovesOnePosition(s: State, k: nat)
    requires UniqueIds(s)
    requires k < |s.stories|
    ensures DeleteStory(s, s.stories[k].id).stories == s.stories[..k] + s.stories[k + 1..]
  {
    var id := s.stories[k].id;
    forall i | 0 <= i < |s.stories| && i != k ensures s.stories[i].id != id {
      if i < k { UniqueStoryIds(s, i, k); } else { UniqueStoryIds(s, k, i); }
    }
    FilterDropsOne(s.stories, k, (st: Story) => st.id != id);
  }

  // ---------------------------------------------------------------------
  // Calls that name nothing

  /** `updateChapter` on a story/chapter pair that does not exist changes
      nothing at all. */
  lemma UpdateMissingChapterIsNoOp(s: State, storyId: Id, chapterId: Id, content: string, title: Option<string>)
    requires !HasChapter(s.stories, storyId, chapterId)
    ensures UpdateChapter(s, storyId, chapterId, content, title) == s
  {
    var r := UpdateChapter(s, storyId, chapterId, content, title);
    forall i | 0 <= i < |s.stories| ensures r.stories[i] == s.stories[i] {
      assert r.stories[i].chapters == s.stories[i].chapters;
    }
  }

  /** `deleteStory` of an id no story has, when that id is not selected,
      changes nothing. */
  lemma DeleteMissingStoryIsNoOp(s: State, storyId: Id)
    requires !HasStory(s.stories, storyId)
    requires s.currentStoryId != Some(storyId)
    ensures DeleteStory(s, storyId) == s
  {
    FilterKeepsAll(s.stories, (st: Story) => st.id != storyId);
  }

  /** `deleteChapter` of a pair that does not exist, when that chapter id is
      not selected, changes nothing. */
  lemma DeleteMissingChapterIsNoOp(s: State, storyId: Id, chapterId: Id)
    requires !HasChapter(s.stories, storyId, chapterId)
    requires s.currentChapterId != Some(chapterId)
    ensures DeleteChapter(s, storyId, chapterId) == s
  {
    var r := DeleteChapter(s, storyId, chapterId);
    forall i | 0 <= i < |s.stories| ensures r.stories[i] == s.stories[i] {
      if s.stories[i].id == storyId {
        FilterKeepsAll(s.stories[i].chapters, (c: Chapter) => c.id != chapterId);
      }
    }
  }

  /** The chapter cursor is matched on the chapter id alone: deleting a
      chapter id from a story that does not hold it still clears a selection
      of that id in another story. */
  lemma DeleteChapterClearsSelectionElsewhere()
    ensures
      var s := State([Story("a", "A", [Chapter("c", "C", "")]), Story("b", "B", [])], Some("a"), Some("c"));
      && !HasChapter(s.stories, "b", "c")
      && DeleteChapter(s, "b", "c") == s.(currentChapterId := None)
  {
    var s := State([Story("a", "A", [Chapter("c", "C", "")]), Story("b", "B", [])], Some("a"), Some("c"));
    var r := DeleteChapter(s, "b", "c");
    assert r.stories[0] == s.stories[0];
    assert r.stories[1].chapters == RemainingChapters([], "c") == [];
    assert r.stories == s.stories;
  }

  // ---------------------------------------------------------------------
  // A session

  /** Adding a story, adding a chapter to it and writing that chapter leaves
      exactly the written text readable through the editor's lookups. */
  lemma WriteFirstChapter(s: State, storyId: Id, chapterId: Id)
    requires Fresh(s, storyId)
    requires Fresh(s, chapterId)
    requires storyId != chapterId
    ensures
      var s1 := AddStory(s, "Book", storyId);
      var s2 := AddChapter(s1, storyId, "Ch1", chapterId);
      var s3 := UpdateChapter(s2, storyId, chapterId, "Once upon a time", None);
      FindStory(s3.stories, storyId) == Some(Story(storyId, "Book", [Chapter(chapterId, "Ch1", "Once upon a time")]))
  {
    var s1 := AddStory(s, "Book", storyId);
    FreshIsUnused(s, storyId);
    IdsConcat(s.stories, [Story(storyId, "Book", [])]);
    IdsCons(Story(storyId, "Book", []), []);
    assert Ids(s1.stories) == Ids(s.stories) + [storyId];
    assert Fresh(s1, chapterId);
    var s2 := AddChapter(s1, storyId, "Ch1", chapterId);
    var s3 := UpdateChapter(s2, storyId, chapterId, "Once upon a time", None);
    var n := |s.stories|;
    assert s3.stories[n].chapters[0] == Chapter(chapterId, "Ch1", "Once upon a time");
    assert s3.stories[n] == Story(storyId, "Book", [Chapter(chapterId, "Ch1", "Once upon a time")]);
    assert forall i :: 0 <= i < n ==> s3.stories[i].id == s.stories[i].id;
    FindAtEnd(s3.stories, storyId);
  }

  /** When only the last story has a given id, `find` returns it. */
  lemma {:induction false} FindAtEnd(stories: seq<Story>, storyId: Id)
    requires |stories| > 0
    requires stories[|stories| - 1].id == storyId
    requires forall i :: 0 <= i < |stories| - 1 ==> stories[i].id != storyId
    ensures FindStory(stories, storyId) == Some(stories[|stories| - 1])
  {
    if |stories| > 1 {
      assert forall i :: 0 <= i < |stories[1..]| ==> stories[1..][i] == stories[i + 1];
      FindAtEnd(stories[1..], storyId);
    }
  }
}
